=== FILE: README.md ===
# Citadels and JustOne game sessions in Dafny

This project models the two game sessions of a small multiplayer game
server. Each session is a single-threaded command loop that owns one game's
state:

- **Citadels** (`citadels/citadels.go`). It covers:
  - the roster: join, leave, disconnect and rename;
  - the start of a game: seating, shuffling and dealing;
  - the two-player character draft;
  - the turn economy: take gold or draw two cards, then put one back;
  - building a district;
  - special powers and end-of-round scoring;
  - the `Circular` crown counter.
- **JustOne** (`justone/justone.go`). It covers the roster and the
  ready / write / reconcile / guess cycle.

The JustOne file repeats four roster helpers for its own player record:
`IndexOf`, `Find`, `NewPlayer` and `RosterIds`. They mirror the Citadels
ones line for line, so the Model rows for the Citadels versions cover both.

Each session is a Dafny `class Game`. Its fields are the Go struct's
fields, and its handler methods change them in place. Three Go objects are
modelled as values:

- A player is a datatype value kept in a sequence.
- The `[8]*int` role-slot array becomes `seq<Option<int>>`.
- Go strings become byte sequences.

One step of the run loop is `Game.Step`. It returns what the loop does with
the command: stale, stop, unknown, rejected, or updated and broadcast. In
Citadels, `Step` sends the choose command to the *corrected* draft handler
`Choose` (see "## Findings"). As written, every pick is rejected, so a game
never leaves the draft phase; `Game.ChooseAsWritten` models that handler
separately. Each `Game.Accepts` collects the acceptance conditions of the
handlers, one per command kind. `Step` proves that a command is applied
exactly when it is current and its handler accepts it. For Citadels this
uses the corrected draft condition `DraftPick`. Every
handler keeps a class invariant, `Valid()`. For Citadels this invariant
says:

- The roster is unique by uuid and by Id, and every Id came from the
  player cursor.
- Every card a player holds or has built exists in the district table.
- No city holds two districts of the same name.
- No purse is negative.
- During a game, every character is in exactly one of three places: a role
  slot, the draft deck, or the set of cards put aside face down (ghost
  field `discarded`).

Randomness becomes parameters. The three `rand.Perm` draws of handleStart
are sequences that must be permutations. The word-list pick of handleReady
is a `word` argument. The verdict of the current character's special-power
resolver is a boolean argument.

Behaviour kept exactly as the code has it, even where a reader might expect
otherwise:

- **Turn ownership.** The turn handlers compare the sender's *seat index*
  with the *Id* stored in the current role slot (`Game.HoldsTurn`). Ids
  start at 1, so the player in seat 0 can never act.
- **Crown counter.** `Circular.Inc` runs over 0..Max *inclusive*, and the
  crown's Max is the number of players. With n players the counter takes
  n+1 values, one of which is not a seat. The JustOne guesser cursor wraps
  the same way (`Common.Next`).
- **Turn after the draft.** After the last draft pick, the turn is the
  *highest* occupied role slot. The loop overwrites it at every occupied
  slot. A "lowest slot" reading of the game rules disagrees; the model
  follows the code.
- **Drawing.** Drawing two cards copies the top of the district deck
  without removing it.
- **handleSpecial** has no phase check.
- **End of round.** The round end neither refills the character deck nor
  clears the role slots.
- **reset** runs only when a game is created.
- **First-to-eight bonus.** Nothing in citadels/citadels.go assigns
  `FirstToEight`, and Ids start at 1, so this bonus is never awarded by the
  code modelled here. The character resolvers receive the whole game and
  are not part of this model.
- **Unreachable JustOne phases.** No JustOne handler ever enters the
  "writing" state or sets `IsGuesser`. The write, reconcile and guess
  commands are therefore never accepted; the roster commands still are.
  Once everyone is ready the session enters guessing and never leaves it,
  because handleReady acts only in the lobby or after a round and no
  guesser exists to end the round. `JustOne.Game.Step` proves both facts
  for every state reachable from a new game.
- **Mutation on rejection.** handleWrite, handleReconcile and handleGuess
  change the state before some of their `return false` paths. The model
  keeps those partial updates, although the design intent is that a
  rejected command changes nothing.

Two kinds of Go panic are modelled as preconditions of the handler: a nil
player dereferenced and an index out of range. `Game.Safe` collects them
per command. A third kind is not modelled: the message a handler sends
when it rejects a command from a player whose connection was cleared (see
"## Left out").

Each handler states what it leaves when it accepts a command as a
two-state predicate named after it (`Joined`, `Left`, `Started`, `Chosen`,
`Readied`, and so on). `Game.Effect` selects that predicate by command kind.
`Step` and its dispatch helpers promise `Effect` for every command they
apply, so they say which handler ran as well as whether it accepted.

## Model

| member | source | states |
|---|---|---|
| Common.ClipName | citadels/citadels.go:302-306 | the stored name is the first min(8, len) bytes of the decoded name |
| Common.Next | citadels/citadels.go:38-41 | one counter step is one more below max and 0 once max is reached, so it stays within 0..max |
| Common.ToUpper | justone/justone.go:343 | same length; no lower-case letter remains; other bytes are kept; each letter moves down by 32 |
| Seqs.RemoveAt | citadels/citadels.go:217 | one shorter; order kept; exactly the removed element leaves the multiset |
| Seqs.SwapRemove | citadels/citadels.go:462-463 | one shorter; the last element moves into the hole; exactly the removed element leaves the multiset |
| Seqs.RemoveAtSet | citadels/citadels.go:333 | removing from a duplicate-free deck stays duplicate-free and loses exactly that value |
| Citadels.BuildKeepsNames | citadels/citadels.go:453-461 | adding a district whose name is not built keeps every built name distinct |
| Citadels.SubIds | citadels/citadels.go:462-463 | a sub-multiset of valid district ids holds only valid ids |
| Citadels.RosterRelabel | citadels/citadels.go:498-522 | changing what players hold but not who they are keeps the roster unique and sound |
| Citadels.RosterReplace | citadels/citadels.go:208-210 | rebinding one player's connection or name keeps the roster sound |
| Citadels.RosterRemove | citadels/citadels.go:217 | removing a player keeps the roster unique |
| Citadels.RosterAdd | citadels/citadels.go:204-206 | appending a new uuid with the cursor's Id keeps the roster unique once the cursor is bumped |
| Citadels.DraftOpens | citadels/citadels.go:271-276 | a shuffled character deck with its top card set aside accounts for every character exactly once |
| Citadels.AccountedPick | citadels/citadels.go:332-333 | assigning the chosen character to a slot keeps slots, deck and set-aside cards a partition |
| Citadels.AccountedDiscard | citadels/citadels.go:344 | setting the chosen character aside keeps the partition |
| Citadels.AccountedLastPick | citadels/citadels.go:362-363 | the last pick with the other card set aside keeps the partition with an empty deck |
| Citadels.NextSeat | citadels/citadels.go:334-337 | the corrected turn step stays within the seats, moves one seat on, and wraps after the last seat |
| Citadels.DraftStallsAsWritten | citadels/citadels.go:345-348 | with the inclusive wrap, two players reach seat 2 (nobody) after the size-5 discard |
| Citadels.TwoPlayerDraft | citadels/citadels.go:328-364 | with the corrected wrap, the seats acting at deck sizes 7..2 are 0,1,1,0,0,1 |
| Citadels.ChoiceGuardAdmitsEnd | citadels/citadels.go:323-326 | the written guard admits choice == len(deck), which the corrected guard refuses; that is the only difference |
| Citadels.LastAssigned | citadels/citadels.go:367-371 | the turn becomes the highest occupied role slot, or stays put when no slot is occupied |
| Citadels.NextRole | citadels/citadels.go:489-494 | finds the first occupied slot after the turn, or reports that none is left |
| Citadels.ScoreAll | citadels/citadels.go:498-522 | every player gets the round score; the game is complete iff some city has at least 8 districts |
| Citadels.ReturnCard | citadels/citadels.go:416-421 | the in-place swap and truncation compute `PutBack` |
| Citadels.PutBackIds | citadels/citadels.go:416-421 | putting a card back leaves only valid district ids |
| Citadels.DrawThenPutBack | citadels/citadels.go:406-421 | after drawing two cards, choice 0 keeps the second drawn card and any other choice keeps the first; the hand grows by one |
| Citadels.IndexOf | citadels/citadels.go:172-180 | -1 iff no player has the uuid; otherwise the first such position |
| Citadels.Find | citadels/citadels.go:172-180 | the scan returns `IndexOf` |
| Citadels.AdvanceClimbs | citadels/citadels.go:36-43 | below Max, k increments add k |
| Citadels.AdvanceSplits | citadels/citadels.go:36-43 | a+b increments are a increments followed by b |
| Citadels.AdvanceCycles | citadels/citadels.go:36-43 | from any value in 0..Max, Max+1 increments come back to it |
| Citadels.Circular.constructor | citadels/citadels.go:266 | a counter with the given value and max |
| Citadels.Circular.Inc | citadels/citadels.go:36-43 | returns the old value and steps the counter; keeps it in 0..Max; wraps to 0 after Max |
| Citadels.Seat | citadels/citadels.go:256-265 | the seating has at most one player per walk step |
| Citadels.SeatMembers | citadels/citadels.go:256-265 | a player is seated iff a bot or connected player is visited by the walk |
| Citadels.SeatUnique | citadels/citadels.go:256-265 | a duplicate-free walk seats a unique roster |
| Citadels.SeatIsFilter | citadels/citadels.go:256-265 | under a permutation walk, the seated players are exactly the bots and connected players |
| Citadels.TallyPositive | citadels/citadels.go:500-505 | a colour's count is positive iff the city has a district of that colour |
| Citadels.AllColorsMeansEveryColor | citadels/citadels.go:506-515 | the all-colours bonus applies iff every one of the five colours is built |
| Citadels.RoundScore | citadels/citadels.go:498-518 | the scoring loop computes: built value, plus 3 for all colours, plus 4 for the first to eight |
| Citadels.RestorePurses | citadels/citadels.go:79-82 | every player gets 2 gold and loses the crown, in place |
| Citadels.SeatPlayers | citadels/citadels.go:256-265 | the seating loop computes `Seat` |
| Citadels.Deal | citadels/citadels.go:278-282 | seat j gets cards 4j..4j+3, and the rest of the deck remains |
| Citadels.SeatedRoster | citadels/citadels.go:255-268 | at least one seat is filled, and the crowned seating is a sound roster |
| Citadels.DealtRoster | citadels/citadels.go:278-282 | dealing real cards keeps the roster sound |
| Citadels.DealtApart | citadels/citadels.go:278-282 | each seat keeps its player and gets exactly 4 cards; from a shuffled deck no card is in two hands, and no dealt card stays in the deck |
| Citadels.Game.constructor | citadels/citadels.go:62-71 | an empty lobby with cursor 1, then reset |
| Citadels.Game.Reset | citadels/citadels.go:73-83 | zeroed decks, empty role slots, a crown sized to the roster, the lobby, and 2 gold and no crown for everyone |
| Citadels.Game.Join | citadels/citadels.go:191-212 | a known uuid is rebound in any phase; a new uuid joins only in the lobby below 10 players, with the next Id; otherwise nothing changes |
| Citadels.Game.Leave | citadels/citadels.go:214-222 | removes the first player with the uuid, order kept; nothing else changes |
| Citadels.Game.Disconnect | citadels/citadels.go:224-233 | clears the connection of a known player and keeps them |
| Citadels.Game.Name | citadels/citadels.go:287-309 | renames iff in the lobby or never named and the payload decodes; the name is clipped to 8 bytes |
| Citadels.Game.Start | citadels/citadels.go:235-285 | starts iff the version matches, the phase is the lobby and there are 2..7 players; the result is the draft phase, the crowned seating dealt 4 cards each, 7 characters left and one set aside |
| Citadels.Game.Open | citadels/citadels.go:266-282 | the writes of a successful start keep the invariant |
| Citadels.Game.ChooseAsWritten | citadels/citadels.go:311-321 | decoding into a plain value rather than its address always fails, so the written handler never accepts a pick |
| Citadels.Game.Choose | citadels/citadels.go:311-378 | the corrected handler (decoded through its address, strict range guard, turn wrap at the player count): accepts iff it is the sender's turn in the draft with a valid choice; per deck size it keeps, sets aside or makes the last pick, and keeps the character partition |
| Citadels.Game.KeepPick | citadels/citadels.go:330-341 | the chosen character goes to the sender's slot and leaves the deck; the turn passes after the first pick |
| Citadels.Game.SetAside | citadels/citadels.go:342-348 | the chosen character is set aside and the turn passes |
| Citadels.Game.LastPick | citadels/citadels.go:360-371 | the last pick is assigned, the other card is set aside, the deck empties, and the turn is the highest occupied slot |
| Citadels.Game.Action | citadels/citadels.go:380-424 | accepts iff the turn owner acts in goldOrDraw or putCardBack with a decodable choice: +2 gold, or draw two, or put one back |
| Citadels.Game.TakeOrDraw | citadels/citadels.go:392-408 | choice 0 adds 2 gold and moves to build; otherwise the top two districts join the hand and the game moves to putCardBack |
| Citadels.Game.PutOneBack | citadels/citadels.go:410-423 | the hand becomes `PutBack(hand, choice)` and the game moves to build |
| Citadels.Game.BuildDistrict | citadels/citadels.go:426-469 | -1 skips to special; otherwise builds iff affordable and the name is not yet built, debiting exactly the cost and swap-removing the card |
| Citadels.Game.Powers | citadels/citadels.go:471-530 | accepts iff the turn owner's power is accepted; the turn moves to the next occupied slot, or the round is scored and ends the game or starts a new draft from the crown |
| Citadels.Game.EndRound | citadels/citadels.go:496-529 | every score is recomputed; the game ends iff some city has 8 districts; otherwise the draft restarts at the crown's value and the crown steps |
| Citadels.Game.Step | citadels/citadels.go:120-170 | the outcome is Updated iff the command is current and its handler accepts it (`Accepts`: the join, leave, disconnect and name conditions, handleStart's checks, the corrected draft pick `DraftPick`, and the turn owner in the right phase for action, build and powers); an applied command leaves exactly what its own handler leaves (`Effect`: `Joined`, `Left`, `Disconnected`, `Renamed`, `Started`, `Chosen`, `Acted`, `Built`, `Powered`); a stale, stop or unknown command changes nothing; a rejected one changes nothing; a finished game stays finished; the version never changes |
| Citadels.Game.Dispatch | citadels/citadels.go:140-163 | a current command other than stop or an unknown kind is accepted iff `Accepts` holds, and then leaves the state its own handler's `Effect` case gives; a finished game stays finished |
| JustOne.KeysKeepRoster | justone/justone.go:187-189 | edits that keep every seat's uuid and Id keep the roster unique |
| JustOne.FirstNotReady | justone/justone.go:247-252 | everyone before it is ready, and the player at it is not |
| JustOne.FirstEmptyClue | justone/justone.go:282-287 | everyone before it has a clue, and the player at it has none |
| JustOne.WipeClues | justone/justone.go:247-252 | wipes clues through the first player not ready, and reports whether one exists |
| JustOne.UnreadyUntilBlank | justone/justone.go:282-287 | marks players not ready through the first empty clue, and reports whether one exists |
| JustOne.EveryoneReady | justone/justone.go:313-317 | true iff every player is ready (`AllReady`) |
| JustOne.UnreadyAll | justone/justone.go:345-347 | every player is marked not ready |
| JustOne.ThroughKeepsKeys | justone/justone.go:247-287 | wiping clues or readiness keeps every seat's identity and guesser flag |
| JustOne.RoundStartsClean | justone/justone.go:246-253 | when everyone is ready, everyone stays ready and every clue is wiped |
| JustOne.CluesComplete | justone/justone.go:282-288 | when every clue is in, everyone has a clue and nobody is ready |
| JustOne.Game.constructor | justone/justone.go:51-60 | an empty lobby with cursor 1, in a reachable state |
| JustOne.Game.Reset | justone/justone.go:62-64 | back to the lobby, nothing else changed |
| JustOne.Game.Join | justone/justone.go:170-191 | a known uuid is rebound in any phase; a new uuid joins only in the lobby below 10 players, with the next Id |
| JustOne.Game.Leave | justone/justone.go:193-201 | removes the first player with the uuid, order kept |
| JustOne.Game.Disconnect | justone/justone.go:203-212 | clears the connection of a known player and keeps them |
| JustOne.Game.Name | justone/justone.go:214-236 | renames iff in the lobby or never named and the payload decodes; clipped to 8 bytes |
| JustOne.Game.Ready | justone/justone.go:238-261 | only in the lobby or after a round; the sender becomes ready; once all are ready, guessing opens with all clues wiped, the next guesser cursor and the new word |
| JustOne.Game.MarkReady | justone/justone.go:246-252 | the sender is ready and clues are wiped through the first player still waiting |
| JustOne.Game.OpenGuessing | justone/justone.go:253-258 | guessing phase; the guesser cursor steps within 0..len(players); the secret word is set |
| JustOne.Game.Write | justone/justone.go:263-291 | only in the writing phase and not by the guesser; stores the clue and unreadies up to the first blank; reconciling opens iff every clue is in |
| JustOne.Game.Reconcile | justone/justone.go:293-321 | only while reconciling; the sender becomes ready, "dupe" wipes their clue, and guessing opens iff all are ready |
| JustOne.Game.Guess | justone/justone.go:323-351 | only the guesser in the guessing phase; the round ends; a decoded guess wins iff its upper-case form is the word |
| JustOne.Game.Settle | justone/justone.go:343-347 | win iff the upper-cased guess is the word; nobody is ready |
| JustOne.Game.Step | justone/justone.go:89-137 | the outcome is Updated iff the command is current and its handler accepts it (`Accepts`: a known or admissible joiner, a known sender, a rename in the lobby or of an unnamed player, ready in the lobby or after a round, the clue that completes writing, the answer that leaves everyone ready, a decoded guess from the guesser); an applied command leaves exactly what its own handler leaves (`Effect`: `Joined`, `Left`, `Disconnected`, `Renamed`, `Readied`, `Written`, `Reconciled`, `Guessed`); stale, stop and unknown commands change nothing; from a reachable state the write, reconcile and guess commands are never accepted, a rejected command changes nothing, reachability is kept, and a session in guessing stays in guessing |
| JustOne.Game.Dispatch | justone/justone.go:109-130 | a current command other than stop or an unknown kind is accepted iff `Accepts` holds, and then leaves the state its own handler's `Effect` case gives; from a reachable state reachability is kept, a rejected command changes nothing, and guessing is never left |

## Left out

- Goroutines, channels, `recover` and the crash log are not modelled. One loop iteration is `Game.Step`; a nil player or an index out of range becomes a precondition.
- Citadels.Game.Safe, JustOne.Game.Safe: disconnect clears a player's connection but keeps the player (citadels/citadels.go:230, justone/justone.go:209). When a handler rejects a command, it sends a message to the sender's connection through `sendMsg` (citadels/citadels.go:187-188, justone/justone.go:158-159). For a player with no connection this is a method call on a nil interface, which panics and ends the session loop. This can happen when two connections share a uuid and one of them disconnects. The model treats such a command as a plain rejection that changes nothing; `Safe` does not exclude it.
- Broadcast (`sendEveryoneEverything`), `sendMsg`, the `Updated` timestamp and JSON encoding of the state are I/O and are left out.
- JSON decoding is not modelled. A payload arrives already decoded as an `Option`, and `None` means the decode failed.
- The websocket connector (`conn.go`) is not part of this model. A connection is a value with an id and the address `Ip()` reports.
- The district table, the character table and the JustOne word list are not part of this model. The district table is a constructor parameter with at least 30 entries and colours below 5, and the word is a parameter.
- The character special-power resolvers and the `Kill` field they use are not part of this model. Their verdict is a boolean parameter, and their side effects on the game are not modelled.
- The `addbot` and `removebot` commands are declared but have no handler, so they are treated as unknown kinds.
- Citadels.Game.Step: dispatches the choose command to the corrected `Choose`. With the handler as written (`ChooseAsWritten`) no pick is accepted, the game stays in the draft, and in the first round the role slots stay empty, so a later action, build or powers command would dereference a nil slot (citadels/citadels.go:382, 428, 473).
- Common.ToUpper: upper-cases ASCII letters only. `strings.ToUpper` also maps non-ASCII letters.
- Hands are copies. After handleStart the Go hands are slices that share the district deck's backing array, and a later in-place write could show through; the model does not capture that aliasing.
- Players are values. The Go roster holds `*Player` references, and nothing else holds them (role slots point at the immutable Id), so a value model loses no sharing.
- Go `int` overflow of gold, score and the cursors is not modelled; the model uses unbounded integers.
- Nothing in the sessions changes `Version`. The model keeps it constant and proves that it is kept.

## Findings

| source | as written | input that shows it | evidently intended | confidence | as-written member | corrected member |
|---|---|---|---|---|---|---|
| citadels/citadels.go:317-321 | `json.Unmarshal(cmd.Data, choice)` passes the int by value, which Unmarshal always refuses | any draft command, e.g. payload `0` at deck size 7 | decode through `&choice` | high, not executed | Citadels.Game.ChooseAsWritten | Citadels.Game.Choose |
| citadels/citadels.go:323 | the range guard `choice > len(c.CharacterDeck)` lets `choice == len` through to an out-of-range index | deck of size 7, choice 7 | `choice >= len(c.CharacterDeck)` | high, not executed | Citadels.ChoiceGuardAdmitsEnd | Citadels.Game.Choose |
| citadels/citadels.go:334-337, 345-348, 356-359 | the turn wraps only when it exceeds `len(c.Players)`, so with 2 players it reaches seat 2 | 2 players: after the size-7 pick the turn is 1; after the size-5 discard it is 2, and nobody can pick at size 4 | wrap when the turn reaches `len(c.Players)` | high, not executed | Citadels.DraftStallsAsWritten | Citadels.TwoPlayerDraft |

=== FILE: citadels.dfy ===
/** The Citadels session (citadels/citadels.go): the roster handlers, the
    two-player character draft, the per-turn economy, building, special powers
    and end-of-round scoring, as methods of a `Game` whose fields they update. */
module Citadels {
  import opened Common
  import opened Seqs

  /** len(Characters) and the size of the Roles array. */
  const RoleSlots := 8
  const Colors := 5
  const MaxPlayers := 10
  const MinStart := 2
  const MaxStart := 7
  const HandSize := 4
  const StartingGold := 2
  const DrawCount := 2
  /** A city this large ends the game at the end of the round. */
  const CompleteCity := 8
  const AllColorsBonus := 3
  const FirstToEightBonus := 4
  /** The district table is not part of this model; all that is assumed of it
      is that it can deal four cards to each of seven players and still leave
      two to draw. */
  const MinDistricts := HandSize * MaxStart + DrawCount

  /** One entry of the district table: its name, its cost (which is also its
      score) and its colour. */
  datatype District = District(name: Bytes, value: int, color: int)

  predicate TableOk(table: seq<District>)
  {
    |table| >= MinDistricts && forall d :: 0 <= d < |table| ==> 0 <= table[d].color < Colors
  }

  datatype State = Lobby | Roles | GoldOrDraw | PutCardBack | Build | Special | End
  {
    /** The position of the state in the Go constant block (iota order). */
    function Ordinal(): nat
    {
      match this
      case Lobby => 0
      case Roles => 1
      case GoldOrDraw => 2
      case PutCardBack => 3
      case Build => 4
      case Special => 5
      case End => 6
    }
  }

  datatype Player = Player(
    ws: Option<Conn>,
    uuid: Bytes,
    id: int,
    name: Bytes,
    connected: bool,
    ip: Bytes,
    isBot: bool,
    hasCrown: bool,
    gold: int,
    hand: seq<int>,
    districts: seq<int>,
    score: int)

  /** `&Player{Uuid: uuid, Id: id}`: every other field at its zero value. */
  function NewPlayer(uuid: Bytes, id: int): (r: Player)
  {
    Player(None, uuid, id, [], false, [], false, false, 0, [], [], 0)
  }

  /** The roster is unique by uuid and by Id, and every Id came from the cursor. */
  predicate RosterIds(ps: seq<Player>, cursor: int)
  {
    && (forall i :: 0 <= i < |ps| ==> 1 <= ps[i].id < cursor)
    && (forall i, j :: 0 <= i < j < |ps| ==> ps[i].uuid != ps[j].uuid && ps[i].id != ps[j].id)
  }

  predicate DistrictIds(table: seq<District>, ds: seq<int>)
  {
    forall k :: 0 <= k < |ds| ==> 0 <= ds[k] < |table|
  }

  /** No two built districts share a name. */
  predicate DistinctNames(table: seq<District>, ds: seq<int>)
    requires DistrictIds(table, ds)
  {
    forall i, j :: 0 <= i < j < |ds| ==> table[ds[i]].name != table[ds[j]].name
  }

  /** What a player holds: cards that exist, a city without two districts of
      one name, and a purse that is never overdrawn. */
  predicate Holdings(table: seq<District>, p: Player)
  {
    DistrictIds(table, p.hand) && DistrictIds(table, p.districts) && DistinctNames(table, p.districts) && p.gold >= 0
  }

  predicate NameBuilt(table: seq<District>, ds: seq<int>, name: Bytes)
    requires DistrictIds(table, ds)
  {
    exists j :: 0 <= j < |ds| && table[ds[j]].name == name
  }

  /** A city stays free of duplicate names when a district whose name is not
      built yet is added to it. */
  lemma BuildKeepsNames(table: seq<District>, ds: seq<int>, card: int)
    requires DistrictIds(table, ds) && DistinctNames(table, ds) && 0 <= card < |table|
    requires !NameBuilt(table, ds, table[card].name)
    ensures DistrictIds(table, ds + [card]) && DistinctNames(table, ds + [card])
  {
    var r := ds + [card];
    forall i, j | 0 <= i < j < |r|
      ensures table[r[i]].name != table[r[j]].name
    {
      if j < |ds| {
        assert r[i] == ds[i] && r[j] == ds[j];
      } else {
        assert r[i] == ds[i];
      }
    }
  }

  /** Cards taken from a hand of real cards are real cards. */
  lemma SubIds(table: seq<District>, r: seq<int>, h: seq<int>)
    requires DistrictIds(table, h) && multiset(r) <= multiset(h)
    ensures DistrictIds(table, r)
  {
    forall k | 0 <= k < |r|
      ensures 0 <= r[k] < |table|
    {
      assert r[k] in multiset(r);
      assert r[k] in h;
    }
  }

  // ---------------------------------------------------------------- the roster

  /** At most ten players, unique by uuid and by Id, each holding only real
      cards and a city without duplicate names. */
  predicate RosterOk(table: seq<District>, ps: seq<Player>, cursor: int)
  {
    && 1 <= cursor
    && |ps| <= MaxPlayers
    && RosterIds(ps, cursor)
    && forall i :: 0 <= i < |ps| ==> Holdings(table, ps[i])
  }

  /** Changing what players hold, but not who they are, keeps the roster sound. */
  lemma RosterRelabel(table: seq<District>, ps: seq<Player>, qs: seq<Player>, cursor: int)
    requires RosterOk(table, ps, cursor) && |qs| == |ps|
    requires forall i :: 0 <= i < |ps| ==>
      qs[i].uuid == ps[i].uuid && qs[i].id == ps[i].id && Holdings(table, qs[i])
    ensures RosterOk(table, qs, cursor)
  {
    forall i, j | 0 <= i < j < |qs|
      ensures qs[i].uuid != qs[j].uuid && qs[i].id != qs[j].id
    {
      assert ps[i].uuid != ps[j].uuid && ps[i].id != ps[j].id;
    }
  }

  lemma RosterReplace(table: seq<District>, ps: seq<Player>, i: nat, q: Player, cursor: int)
    requires RosterOk(table, ps, cursor) && i < |ps|
    requires q.uuid == ps[i].uuid && q.id == ps[i].id && Holdings(table, q)
    ensures RosterOk(table, ps[i := q], cursor)
  {
    RosterRelabel(table, ps, ps[i := q], cursor);
  }

  /** Removing a player keeps the roster sound. */
  lemma RosterRemove(table: seq<District>, ps: seq<Player>, i: nat, cursor: int)
    requires RosterOk(table, ps, cursor) && i < |ps|
    ensures RosterOk(table, RemoveAt(ps, i), cursor)
  {
    var r := RemoveAt(ps, i);
    forall a, b | 0 <= a < b < |r|
      ensures r[a].uuid != r[b].uuid && r[a].id != r[b].id
    {
      var a', b' := if a < i then a else a + 1, if b < i then b else b + 1;
      assert r[a] == ps[a'] && r[b] == ps[b'] && a' < b';
    }
  }

  /** A newcomer with an unseen uuid and the cursor's Id keeps the roster sound
      once the cursor moves on. */
  lemma RosterAdd(table: seq<District>, ps: seq<Player>, q: Player, cursor: int)
    requires RosterOk(table, ps, cursor) && |ps| < MaxPlayers
    requires IndexOf(ps, q.uuid) == -1 && q.id == cursor && 1 <= cursor && Holdings(table, q)
    ensures RosterOk(table, ps + [q], cursor + 1)
  {
    var r := ps + [q];
    forall a, b | 0 <= a < b < |r|
      ensures r[a].uuid != r[b].uuid && r[a].id != r[b].id
    {
      assert r[a] == ps[a];
    }
  }

  // ---------------------------------------------------------------- the draft

  /** Every character is in the draft deck, in a role slot, or set aside, and
      in only one of them. */
  predicate Accounted(deck: seq<int>, roles: seq<Option<int>>, discarded: set<int>)
  {
    && |roles| == RoleSlots
    && NoDups(deck)
    && (forall k :: 0 <= k < |deck| ==> 0 <= deck[k] < RoleSlots && roles[deck[k]].None? && deck[k] !in discarded)
    && (forall c :: c in discarded ==> 0 <= c < RoleSlots && roles[c].None?)
    && (forall c :: 0 <= c < RoleSlots ==> roles[c].Some? || c in deck || c in discarded)
  }

  /** A shuffled deck with its top card set aside accounts for every character. */
  lemma DraftOpens(characters: seq<int>, roles: seq<Option<int>>)
    requires IsPerm(characters, RoleSlots)
    requires |roles| == RoleSlots && forall c :: 0 <= c < RoleSlots ==> roles[c].None?
    ensures Accounted(characters[1..], roles, {characters[0]})
  {
    var deck := characters[1..];
    forall c | 0 <= c < RoleSlots
      ensures c == characters[0] || c in deck
    {
      assert c in characters;
      var j :| 0 <= j < |characters| && characters[j] == c;
      if j > 0 {
        assert deck[j - 1] == c;
      }
    }
    forall a, b | 0 <= a < b < |deck|
      ensures deck[a] != deck[b]
    {
      assert deck[a] == characters[a + 1] && deck[b] == characters[b + 1];
    }
    forall k | 0 <= k < |deck|
      ensures deck[k] != characters[0]
    {
      assert deck[k] == characters[k + 1];
    }
  }

  /** Taking a character out of the deck into a role slot keeps every
      character accounted for. */
  lemma AccountedPick(deck: seq<int>, roles: seq<Option<int>>, discarded: set<int>, c: nat, id: int)
    requires Accounted(deck, roles, discarded) && c < |deck|
    ensures Accounted(RemoveAt(deck, c), roles[deck[c] := Some(id)], discarded)
  {
    RemoveAtSet(deck, c);
    var r, rs := RemoveAt(deck, c), roles[deck[c] := Some(id)];
    forall k | 0 <= k < |r|
      ensures r[k] != deck[c] && r[k] in deck
    {
      assert r[k] in (set x | x in r);
    }
    forall x | 0 <= x < RoleSlots
      ensures rs[x].Some? || x in r || x in discarded
    {
      if x != deck[c] && x in deck {
        assert x in (set y | y in deck) - {deck[c]};
      }
    }
  }

  /** Setting a character aside keeps every character accounted for. */
  lemma AccountedDiscard(deck: seq<int>, roles: seq<Option<int>>, discarded: set<int>, c: nat)
    requires Accounted(deck, roles, discarded) && c < |deck|
    ensures Accounted(RemoveAt(deck, c), roles, discarded + {deck[c]})
  {
    RemoveAtSet(deck, c);
    var r := RemoveAt(deck, c);
    forall k | 0 <= k < |r|
      ensures r[k] != deck[c] && r[k] in deck
    {
      assert r[k] in (set x | x in r);
    }
    forall x | 0 <= x < RoleSlots
      ensures roles[x].Some? || x in r || x in discarded + {deck[c]}
    {
      if x != deck[c] && x in deck {
        assert x in (set y | y in deck) - {deck[c]};
      }
    }
  }

  /** The last pick empties the deck: the picked character gets its slot, the
      other is set aside, and every character is assigned or set aside. */
  lemma AccountedLastPick(deck: seq<int>, roles: seq<Option<int>>, discarded: set<int>, c: nat, id: int)
    requires Accounted(deck, roles, discarded) && c < |deck|
    ensures Accounted([], roles[deck[c] := Some(id)], discarded + (set x | x in deck && x != deck[c]))
  {
  }

  /** What handleChoose does at each size of the deck in the two-player
      variant: keep the character, set it aside, take the last pick, or
      refuse. */
  datatype Move = Keep | Discard | Last | Refuse

  function DraftMove(n: int): (r: Move)
  {
    if n == 7 || n == 6 || n == 4 then Keep
    else if n == 5 || n == 3 then Discard
    else if n == 2 then Last
    else Refuse
  }

  /** The deck sizes after which the next seat picks. */
  predicate PassesTurn(n: int)
  {
    n == 7 || n == 5 || n == 3
  }

  /** The seat after `turn` as handleChoose computes it: it wraps to 0 only
      once it has passed the number of players, so it can stop on a seat
      nobody sits in. */
  function NextSeatAsWritten(turn: int, seats: int): (r: int)
  {
    if turn + 1 > seats then 0 else turn + 1
  }

  /** The seat after `turn`, wrapping to 0 after the last seat. */
  function NextSeat(turn: int, seats: int): (r: int)
    ensures 0 <= turn < seats ==> 0 <= r < seats
    ensures 0 <= turn < seats - 1 ==> r == turn + 1
    ensures turn == seats - 1 ==> r == 0
  {
    if turn + 1 >= seats then 0 else turn + 1
  }

  /** The seat that picks when the deck holds `n` characters, given the seat
      that picked first and the step function. */
  function SeatAt(n: int, seats: int, first: int, asWritten: bool): (r: int)
    requires 2 <= n <= 7
    decreases 7 - n
  {
    if n == 7 then first
    else
      var before := SeatAt(n + 1, seats, first, asWritten);
      if !PassesTurn(n + 1) then before
      else if asWritten then NextSeatAsWritten(before, seats) else NextSeat(before, seats)
  }

  /** With two players and the wrap as written, the seat after the second
      discard is 2, which nobody occupies: the four-card pick can never be
      made. */
  lemma DraftStallsAsWritten()
    ensures SeatAt(5, 2, 0, true) == 1 && SeatAt(4, 2, 0, true) == 2
  {
  }

  /** With the wrap after the last seat, the two-player draft runs as its
      comments describe: seats 0, 1, 1, 0, 0, 1 at deck sizes 7 down to 2, so
      each player keeps exactly two characters. */
  lemma TwoPlayerDraft()
    ensures SeatAt(7, 2, 0, false) == 0 && SeatAt(6, 2, 0, false) == 1
    ensures SeatAt(5, 2, 0, false) == 1 && SeatAt(4, 2, 0, false) == 0
    ensures SeatAt(3, 2, 0, false) == 0 && SeatAt(2, 2, 0, false) == 1
    ensures forall n :: 2 <= n <= 7 ==> 0 <= SeatAt(n, 2, 0, false) < 2
  {
  }

  /** The corrected range test of handleChoose: a position inside the deck. */
  predicate ValidChoice(choice: int, deck: seq<int>)
  {
    0 <= choice < |deck|
  }

  /** The range test of handleChoose as written: it rejects only positions
      above the deck's length and negative ones. */
  predicate ChoiceGuardAsWritten(choice: int, deck: seq<int>)
  {
    !(choice > |deck| || choice < 0)
  }

  /** The guard as written lets through the position one past the deck's end,
      which is not a valid index, for every deck; the corrected test admits
      exactly the valid indices. */
  lemma ChoiceGuardAdmitsEnd(deck: seq<int>)
    ensures ChoiceGuardAsWritten(|deck|, deck) && !ValidChoice(|deck|, deck)
    ensures forall choice :: ValidChoice(choice, deck) ==> ChoiceGuardAsWritten(choice, deck)
    ensures forall choice :: ChoiceGuardAsWritten(choice, deck) && !ValidChoice(choice, deck) ==> choice == |deck|
  {
  }

  /** The scan at the end of the draft: the highest occupied role slot, or
      `t0` when every slot is empty. */
  method LastAssigned(roles: seq<Option<int>>, t0: int) returns (t: int)
    ensures (exists j :: 0 <= j < |roles| && roles[j].Some?) ==> IsLastAssigned(roles, t)
    ensures (forall j :: 0 <= j < |roles| ==> roles[j].None?) ==> t == t0
  {
    t := t0;
    var k := 0;
    while k < |roles|
      invariant 0 <= k <= |roles|
      invariant
        || (t == t0 && forall j :: 0 <= j < k ==> roles[j].None?)
        || (0 <= t < k && roles[t].Some? && forall j :: t < j < k ==> roles[j].None?)
    {
      if roles[k].Some? {
        t := k;
      }
      k := k + 1;
    }
  }

  /** The scan of handleSpecial: the first occupied role slot after `t`, or
      the number of slots when there is none. */
  method NextRole(roles: seq<Option<int>>, t: int) returns (k: int)
    requires 0 <= t < |roles|
    ensures t < k <= |roles|
    ensures forall j :: t < j < k ==> roles[j].None?
    ensures k < |roles| <==> HasLaterRole(roles, t)
    ensures k < |roles| ==> roles[k].Some?
  {
    k := t + 1;
    while k < |roles| && roles[k].None?
      invariant t < k <= |roles|
      invariant forall j :: t < j < k ==> roles[j].None?
    {
      k := k + 1;
    }
  }

  /** The scoring loop of handleSpecial: every player's score, and whether
      some city is complete. */
  method ScoreAll(table: seq<District>, firstToEight: int, ps: seq<Player>) returns (scored: seq<Player>, complete: bool)
    requires TableOk(table) && forall i :: 0 <= i < |ps| ==> DistrictIds(table, ps[i].districts)
    ensures |scored| == |ps|
    ensures forall i :: 0 <= i < |ps| ==> scored[i] == ps[i].(score := Score(table, firstToEight, ps[i]))
    ensures complete <==> exists i :: 0 <= i < |ps| && |ps[i].districts| >= CompleteCity
  {
    scored := ps;
    complete := false;
    var k := 0;
    while k < |ps|
      invariant 0 <= k <= |ps| == |scored|
      invariant forall j :: 0 <= j < k ==> scored[j] == ps[j].(score := Score(table, firstToEight, ps[j]))
      invariant forall j :: k <= j < |ps| ==> scored[j] == ps[j]
      invariant complete <==> exists j :: 0 <= j < k && |ps[j].districts| >= CompleteCity
    {
      var s := RoundScore(table, firstToEight, ps[k]);
      scored := scored[k := ps[k].(score := s)];
      if |ps[k].districts| >= CompleteCity {
        complete := true;
      }
      k := k + 1;
    }
  }

  // ---------------------------------------------------------------- the hand

  /** putCardBack: choice 0 copies the last card over the one before it, so
      the second-to-last card goes back; any other choice gives back the last
      card. */
  function PutBack(h: seq<int>, choice: int): (r: seq<int>)
    requires |h| >= (if choice == 0 then DrawCount else 1)
    ensures |r| == |h| - 1
  {
    if choice == 0 then
      assert h == h[..|h| - 2] + [h[|h| - 2]] + [h[|h| - 1]];
      h[..|h| - 2] + [h[|h| - 1]]
    else
      assert h == h[..|h| - 1] + [h[|h| - 1]];
      h[..|h| - 1]
  }

  /** The hand edit of putCardBack as handleAction performs it: the copy over
      the second-to-last slot, then the cut. */
  method ReturnCard(h: seq<int>, choice: int) returns (r: seq<int>)
    requires |h| >= (if choice == 0 then DrawCount else 1)
    ensures r == PutBack(h, choice)
  {
    r := h;
    if choice == 0 {
      r := r[|r| - 2 := r[|r| - 1]];
      assert r[..|r| - 1] == h[..|h| - 2] + [h[|h| - 1]];
    }
    r := r[..|r| - 1];
  }

  /** Putting a card back leaves only real cards in the hand. */
  lemma PutBackIds(table: seq<District>, h: seq<int>, choice: int)
    requires |h| >= (if choice == 0 then DrawCount else 1) && DistrictIds(table, h)
    ensures DistrictIds(table, PutBack(h, choice))
  {
  }

  /** Drawing two cards and putting one back leaves the old hand plus one of
      the two: choice 0 keeps the second card drawn, any other the first. */
  lemma DrawThenPutBack(hand: seq<int>, drawn: seq<int>, choice: int)
    requires |drawn| == DrawCount
    ensures PutBack(hand + drawn, choice) == hand + [if choice == 0 then drawn[1] else drawn[0]]
  {
    var h := hand + drawn;
    var r := PutBack(h, choice);
    assert r[..|hand|] == h[..|hand|] by {
      assert r[..|h| - DrawCount + (if choice == 0 then 0 else 1)][..|hand|] == r[..|hand|];
    }
    assert h[..|hand|] == hand;
    if choice == 0 {
      assert r[|hand|] == drawn[1];
    } else {
      assert r[|hand|] == h[|hand|];
    }
    assert r == r[..|hand|] + [r[|hand|]];
  }

  // ---------------------------------------------------------------- Find

  /** The position of the first player with this uuid, or -1. */
  function IndexOf(ps: seq<Player>, uuid: Bytes): (i: int)
    ensures -1 <= i < |ps|
    ensures i == -1 <==> forall j :: 0 <= j < |ps| ==> ps[j].uuid != uuid
    ensures 0 <= i ==> ps[i].uuid == uuid && forall j :: 0 <= j < i ==> ps[j].uuid != uuid
  {
    if ps == [] then -1
    else if ps[0].uuid == uuid then 0
    else
      var k := IndexOf(ps[1..], uuid);
      if k == -1 then -1 else k + 1
  }

  /** Find: a linear scan that stops at the first match. */
  method Find(ps: seq<Player>, uuid: Bytes) returns (i: int)
    ensures i == IndexOf(ps, uuid)
  {
    i := 0;
    while i < |ps|
      invariant 0 <= i <= |ps|
      invariant forall j :: 0 <= j < i ==> ps[j].uuid != uuid
    {
      if ps[i].uuid == uuid {
        return;
      }
      i := i + 1;
    }
    i := -1;
  }

  // ---------------------------------------------------------------- Circular

  /** The counter after `k` calls of Inc. */
  function Advance(v: int, max: int, k: nat): (r: int)
  {
    if k == 0 then v else Next(Advance(v, max, k - 1), max)
  }

  lemma {:induction false} AdvanceClimbs(v: int, max: int, k: nat)
    requires 0 <= v && v + k <= max
    ensures Advance(v, max, k) == v + k
  {
    if k > 0 {
      AdvanceClimbs(v, max, k - 1);
    }
  }

  lemma {:induction false} AdvanceSplits(v: int, max: int, a: nat, b: nat)
    ensures Advance(v, max, a + b) == Advance(Advance(v, max, a), max, b)
  {
    if b > 0 {
      AdvanceSplits(v, max, a, b - 1);
    }
  }

  /** A counter over 0..max comes back to where it started after max + 1 calls. */
  lemma AdvanceCycles(v: int, max: int)
    requires 0 <= v <= max
    ensures Advance(v, max, max + 1) == v
  {
    var up := max - v;
    AdvanceSplits(v, max, up + 1, v);
    AdvanceClimbs(v, max, up);
    assert Advance(v, max, up + 1) == 0;
    AdvanceClimbs(0, max, v);
  }

  /** Circular: a counter over 0..Max, both ends included. */
  class Circular {
    var value: int
    var max: int

    constructor (value: int, max: int)
      ensures this.value == value && this.max == max
    {
      this.value := value;
      this.max := max;
    }

    /** Returns the value from before the call, then steps it on, wrapping to 0
        once it would pass Max. */
    method Inc() returns (r: int)
      modifies this
      ensures r == old(value) && max == old(max)
      ensures value == Next(old(value), max)
      ensures old(0 <= value <= max) ==> 0 <= value <= max
      ensures old(value) == max ==> value == 0
    {
      r := value;
      value := value + 1;
      if value > max {
        value := 0;
      }
    }
  }

  // ---------------------------------------------------------------- seating

  /** handleStart keeps bots and connected players. */
  predicate Stays(p: Player)
  {
    p.isBot || p.connected
  }

  predicate Walk(ps: seq<Player>, walk: seq<int>)
  {
    forall k :: 0 <= k < |walk| ==> 0 <= walk[k] < |ps|
  }

  /** The roster handleStart builds: the players in the order `walk` visits
      them, skipping those that neither are bots nor are connected. */
  function Seat(ps: seq<Player>, walk: seq<int>): (r: seq<Player>)
    requires Walk(ps, walk)
    ensures |r| <= |walk|
  {
    if walk == [] then []
    else
      var p := ps[walk[|walk| - 1]];
      Seat(ps, walk[..|walk| - 1]) + (if Stays(p) then [p] else [])
  }

  /** Seating keeps exactly the staying players that the walk visits. */
  lemma {:induction false} SeatMembers(ps: seq<Player>, walk: seq<int>)
    requires Walk(ps, walk)
    ensures |Seat(ps, walk)| <= |walk|
    ensures forall x :: x in Seat(ps, walk) <==> Stays(x) && exists k :: 0 <= k < |walk| && x == ps[walk[k]]
  {
    if walk != [] {
      var w := walk[..|walk| - 1];
      SeatMembers(ps, w);
      forall x | Stays(x) && exists k :: 0 <= k < |walk| && x == ps[walk[k]]
        ensures x in Seat(ps, walk)
      {
        var k :| 0 <= k < |walk| && x == ps[walk[k]];
        if k < |w| {
          assert x == ps[w[k]];
        }
      }
      forall x | x in Seat(ps, w)
        ensures exists k :: 0 <= k < |walk| && x == ps[walk[k]]
      {
        var k :| 0 <= k < |w| && x == ps[w[k]];
        assert x == ps[walk[k]];
      }
    }
  }

  /** A walk that visits each seat once keeps the roster's uuids and Ids unique. */
  lemma {:induction false} SeatUnique(ps: seq<Player>, walk: seq<int>, cursor: int)
    requires Walk(ps, walk) && NoDups(walk) && RosterIds(ps, cursor)
    ensures RosterIds(Seat(ps, walk), cursor)
  {
    if walk != [] {
      var w := walk[..|walk| - 1];
      var last := walk[|walk| - 1];
      var s := Seat(ps, w);
      SeatUnique(ps, w, cursor);
      SeatMembers(ps, w);
      var p := ps[last];
      forall x | x in s
        ensures x.uuid != p.uuid && x.id != p.id
      {
        var k :| 0 <= k < |w| && x == ps[w[k]];
        assert w[k] != last;
        if w[k] < last {
          assert ps[w[k]].uuid != ps[last].uuid;
        } else {
          assert ps[last].uuid != ps[w[k]].uuid;
        }
      }
      if Stays(p) {
        var r := s + [p];
        forall i, j | 0 <= i < j < |r|
          ensures r[i].uuid != r[j].uuid && r[i].id != r[j].id
        {
          if j == |s| {
            assert r[i] in s;
          }
        }
      }
    }
  }

  /** When the walk is a permutation of the seats, seating keeps precisely the
      bots and connected players of the old roster, each of them once. */
  lemma SeatIsFilter(ps: seq<Player>, walk: seq<int>, cursor: int)
    requires IsPerm(walk, |ps|) && RosterIds(ps, cursor)
    ensures forall x :: x in Seat(ps, walk) <==> x in ps && Stays(x)
    ensures RosterIds(Seat(ps, walk), cursor)
    ensures |Seat(ps, walk)| <= |ps|
  {
    SeatMembers(ps, walk);
    SeatUnique(ps, walk, cursor);
    forall x | x in ps && Stays(x)
      ensures x in Seat(ps, walk)
    {
      var i :| 0 <= i < |ps| && ps[i] == x;
      assert i in walk;
      var k :| 0 <= k < |walk| && walk[k] == i;
      assert x == ps[walk[k]];
    }
  }

  // ---------------------------------------------------------------- scoring

  /** The summed value of the built districts. */
  function BuiltValue(table: seq<District>, ds: seq<int>): (r: int)
    requires DistrictIds(table, ds)
  {
    if ds == [] then 0 else BuiltValue(table, ds[..|ds| - 1]) + table[ds[|ds| - 1]].value
  }

  /** How many built districts have this colour. */
  function Tally(table: seq<District>, ds: seq<int>, color: int): (r: nat)
    requires DistrictIds(table, ds)
  {
    if ds == [] then 0
    else Tally(table, ds[..|ds| - 1], color) + (if table[ds[|ds| - 1]].color == color then 1 else 0)
  }

  /** Some built district has this colour. */
  predicate HasColor(table: seq<District>, ds: seq<int>, color: int)
    requires DistrictIds(table, ds)
  {
    exists j :: 0 <= j < |ds| && table[ds[j]].color == color
  }

  predicate AllColors(table: seq<District>, ds: seq<int>)
    requires DistrictIds(table, ds)
  {
    forall c :: 0 <= c < Colors ==> Tally(table, ds, c) > 0
  }

  /** A colour's tally is positive exactly when some built district has it. */
  lemma {:induction false} TallyPositive(table: seq<District>, ds: seq<int>, color: int)
    requires DistrictIds(table, ds)
    ensures Tally(table, ds, color) > 0 <==> HasColor(table, ds, color)
  {
    if ds != [] {
      var init := ds[..|ds| - 1];
      TallyPositive(table, init, color);
      if HasColor(table, init, color) {
        var j :| 0 <= j < |init| && table[init[j]].color == color;
        assert table[ds[j]].color == color;
      }
      if HasColor(table, ds, color) {
        var j :| 0 <= j < |ds| && table[ds[j]].color == color;
        if j < |init| {
          assert table[init[j]].color == color;
        }
      }
    }
  }

  /** The all-colours bonus is earned exactly when each of the five colours is built. */
  lemma AllColorsMeansEveryColor(table: seq<District>, ds: seq<int>)
    requires DistrictIds(table, ds)
    ensures AllColors(table, ds) <==> forall c :: 0 <= c < Colors ==> HasColor(table, ds, c)
  {
    forall c | 0 <= c < Colors
      ensures Tally(table, ds, c) > 0 <==> HasColor(table, ds, c)
    {
      TallyPositive(table, ds, c);
    }
  }

  /** The end-of-round score of one player. */
  function Score(table: seq<District>, firstToEight: int, p: Player): (r: int)
    requires DistrictIds(table, p.districts)
  {
    BuiltValue(table, p.districts)
      + (if AllColors(table, p.districts) then AllColorsBonus else 0)
      + (if firstToEight == p.id then FirstToEightBonus else 0)
  }

  /** The score loop of handleSpecial for one player: sum the values, count the
      colours, then add the two bonuses. */
  method RoundScore(table: seq<District>, firstToEight: int, p: Player) returns (score: int)
    requires TableOk(table) && DistrictIds(table, p.districts)
    ensures score == Score(table, firstToEight, p)
  {
    var ds := p.districts;
    score := 0;
    var colors := [0, 0, 0, 0, 0];
    var k := 0;
    while k < |ds|
      invariant 0 <= k <= |ds|
      invariant score == BuiltValue(table, ds[..k])
      invariant |colors| == Colors
      invariant forall c :: 0 <= c < Colors ==> colors[c] == Tally(table, ds[..k], c)
    {
      assert ds[..k + 1][..k] == ds[..k];
      var card := table[ds[k]];
      score := score + card.value;
      colors := colors[card.color := colors[card.color] + 1];
      k := k + 1;
    }
    assert ds[..k] == ds;
    var allColors := true;
    var c := 0;
    while c < Colors
      invariant 0 <= c <= Colors
      invariant allColors
      invariant forall j :: 0 <= j < c ==> colors[j] != 0
    {
      if colors[c] == 0 {
        allColors := false;
        break;
      }
      c := c + 1;
    }
    if allColors {
      score := score + AllColorsBonus;
    }
    if firstToEight == p.id {
      score := score + FirstToEightBonus;
    }
  }

  // ---------------------------------------------------------------- commands

  datatype Kind =
    | CmdJoin
    | CmdLeave
    | CmdDisconnect
    | CmdStop
    | CmdName(name: Option<Bytes>)
    | CmdStart
    | CmdChoose(choice: Option<int>)
    | CmdAction(choice: Option<int>)
    | CmdBuild(choice: Option<int>)
    | CmdPowers(choice: Option<int>)
    | CmdOther(tag: Bytes)

  /** A decoded command: a payload that fails to decode is `None`. */
  datatype Command = Command(kind: Kind, sender: Bytes, version: int, ws: Conn)

  /** What the environment decides: the three `rand.Perm` draws of handleStart
      and the verdict of the current character's resolver. */
  datatype Chance = Chance(seating: seq<int>, characters: seq<int>, districts: seq<int>, resolverAccepts: bool)

  /** The role slot after `t` holding a player, if any. */
  predicate HasLaterRole(roles: seq<Option<int>>, t: int)
  {
    exists j :: t < j < |roles| && 0 <= j && roles[j].Some?
  }

  /** `t` is the highest occupied role slot. */
  predicate IsLastAssigned(roles: seq<Option<int>>, t: int)
  {
    0 <= t < |roles| && roles[t].Some? && forall j :: t < j < |roles| ==> roles[j].None?
  }

  // ---------------------------------------------------------------- start

  /** The purse refill of reset: 2 gold and no crown for every player, each
      keeping its place. */
  method RestorePurses(table: seq<District>, ps: seq<Player>, cursor: int) returns (r: seq<Player>)
    requires RosterOk(table, ps, cursor)
    ensures |r| == |ps|
    ensures forall i :: 0 <= i < |r| ==> r[i] == ps[i].(gold := StartingGold, hasCrown := false)
    ensures RosterOk(table, r, cursor)
  {
    r := ps;
    var k := 0;
    while k < |r|
      invariant 0 <= k <= |r| == |ps|
      invariant forall i :: 0 <= i < k ==> r[i] == ps[i].(gold := StartingGold, hasCrown := false)
      invariant forall i :: k <= i < |r| ==> r[i] == ps[i]
      invariant RosterOk(table, r, cursor)
    {
      RosterReplace(table, r, k, r[k].(gold := StartingGold, hasCrown := false), cursor);
      r := r[k := r[k].(gold := StartingGold, hasCrown := false)];
      k := k + 1;
    }
  }

  /** The seating loop of handleStart. */
  method SeatPlayers(ps: seq<Player>, walk: seq<int>) returns (seated: seq<Player>)
    requires Walk(ps, walk)
    ensures seated == Seat(ps, walk)
  {
    seated := [];
    var k := 0;
    while k < |walk|
      invariant 0 <= k <= |walk|
      invariant seated == Seat(ps, walk[..k])
    {
      assert walk[..k + 1][..k] == walk[..k];
      var p := ps[walk[k]];
      k := k + 1;
      if !p.isBot && !p.connected {
        continue;
      }
      seated := seated + [p];
    }
    assert walk[..k] == walk;
  }

  /** The dealing loop of handleStart: seat j gets the four cards at 4j..4j+3
      of the shuffled deck, and the deck keeps what is left. */
  method Deal(seated: seq<Player>, deck: seq<int>) returns (dealt: seq<Player>, rest: seq<int>)
    requires HandSize * |seated| <= |deck|
    ensures dealt == Dealt(seated, deck)
    ensures rest == deck[HandSize * |seated|..]
  {
    dealt := seated;
    rest := deck;
    var k := 0;
    while k < |seated|
      invariant 0 <= k <= |seated| == |dealt|
      invariant rest == deck[HandSize * k..]
      invariant forall j :: 0 <= j < k ==> dealt[j] == seated[j].(hand := deck[HandSize * j..HandSize * (j + 1)])
      invariant forall j :: k <= j < |dealt| ==> dealt[j] == seated[j]
    {
      assert rest[0..HandSize] == deck[HandSize * k..HandSize * (k + 1)];
      dealt := dealt[k := dealt[k].(hand := rest[0..HandSize])];
      rest := rest[HandSize..];
      k := k + 1;
    }
    assert forall j :: 0 <= j < |dealt| ==> dealt[j] == Dealt(seated, deck)[j];
  }

  /** handleStart crowns the player in seat 0. */
  function Crowned(s: seq<Player>): (r: seq<Player>)
  {
    if s == [] then [] else s[0 := s[0].(hasCrown := true)]
  }

  /** The roster after dealing: seat j holds the cards at 4j..4j+3 of the
      deck, and nothing else about any player changes. */
  function Dealt(seated: seq<Player>, deck: seq<int>): (r: seq<Player>)
    requires HandSize * |seated| <= |deck|
    ensures |r| == |seated|
    ensures forall j :: 0 <= j < |r| ==> r[j] == seated[j].(hand := deck[HandSize * j..HandSize * (j + 1)])
  {
    seq(|seated|, j requires 0 <= j < |seated| => seated[j].(hand := deck[HandSize * j..HandSize * (j + 1)]))
  }

  /** The seated roster of a start, crowned at seat 0, is sound and not empty. */
  lemma SeatedRoster(table: seq<District>, ps: seq<Player>, walk: seq<int>, cursor: int)
    requires RosterOk(table, ps, cursor) && IsPerm(walk, |ps|)
    requires exists i :: 0 <= i < |ps| && Stays(ps[i])
    ensures 1 <= |Seat(ps, walk)| <= |ps|
    ensures RosterOk(table, Crowned(Seat(ps, walk)), cursor)
  {
    var s := Seat(ps, walk);
    SeatIsFilter(ps, walk, cursor);
    var stay :| 0 <= stay < |ps| && Stays(ps[stay]);
    assert ps[stay] in s;
    forall i | 0 <= i < |s|
      ensures Holdings(table, s[i])
    {
      assert s[i] in ps;
    }
    RosterReplace(table, s, 0, s[0].(hasCrown := true), cursor);
  }

  /** Dealing real cards keeps a seated roster sound. */
  lemma DealtRoster(table: seq<District>, seated: seq<Player>, deck: seq<int>, cursor: int)
    requires RosterOk(table, seated, cursor) && DistrictIds(table, deck) && HandSize * |seated| <= |deck|
    ensures RosterOk(table, Dealt(seated, deck), cursor)
  {
    var dealt := Dealt(seated, deck);
    forall j | 0 <= j < |dealt|
      ensures Holdings(table, dealt[j])
    {
      assert DistrictIds(table, deck[HandSize * j..HandSize * (j + 1)]);
    }
    RosterRelabel(table, seated, dealt, cursor);
  }

  /** Dealing from a shuffled deck: every seat keeps its player and gets four
      cards of its own; no card is dealt into two hands, and no dealt card is
      still in the deck left to draw. */
  lemma DealtApart(seated: seq<Player>, deck: seq<int>)
    requires NoDups(deck) && HandSize * |seated| <= |deck|
    ensures forall j :: 0 <= j < |seated| ==>
      |Dealt(seated, deck)[j].hand| == HandSize && Dealt(seated, deck)[j].(hand := seated[j].hand) == seated[j]
    ensures forall i, j :: 0 <= i < |seated| && 0 <= j < |seated| && i != j ==>
      multiset(Dealt(seated, deck)[i].hand) !! multiset(Dealt(seated, deck)[j].hand)
    ensures forall j :: 0 <= j < |seated| ==>
      multiset(Dealt(seated, deck)[j].hand) !! multiset(deck[HandSize * |seated|..])
  {
    var r, rest := Dealt(seated, deck), deck[HandSize * |seated|..];
    forall i, j | 0 <= i < |seated| && 0 <= j < |seated| && i != j
      ensures multiset(r[i].hand) !! multiset(r[j].hand)
    {
      forall x | x in multiset(r[i].hand)
        ensures x !in multiset(r[j].hand)
      {
        var u :| 0 <= u < HandSize && r[i].hand[u] == x;
        assert deck[HandSize * i + u] == x;
      }
    }
    forall j | 0 <= j < |seated|
      ensures multiset(r[j].hand) !! multiset(rest)
    {
      forall x | x in multiset(r[j].hand)
        ensures x !in multiset(rest)
      {
        var u :| 0 <= u < HandSize && r[j].hand[u] == x;
        assert deck[HandSize * j + u] == x;
      }
    }
  }

  // ---------------------------------------------------------------- the game

  class Game {
    var players: seq<Player>
    var playerCursor: int
    /** Whose seat picks during the draft; the acting role slot afterwards. */
    var turn: int
    var state: State
    var characterDeck: seq<int>
    var districtDeck: seq<int>
    var crown: Circular
    /** roles[k]: the Id stored for character k, if someone drafted it. */
    var roles: seq<Option<int>>
    var firstToEight: int
    var version: int
    const table: seq<District>
    /** The characters set aside during the draft: the face-down one, the two
        discards, and the one left over after the last pick. */
    ghost var discarded: set<int>

    /** Everything the roster handlers leave alone. */
    ghost function Board(): (int, State, seq<int>, seq<int>, Circular, seq<Option<int>>, int, int, set<int>)
      reads this
    {
      (turn, state, characterDeck, districtDeck, crown, roles, firstToEight, version, discarded)
    }

    /** The decks, the role slots and the bookkeeping that the turn handlers
        leave alone. */
    ghost function Decks(): (seq<int>, seq<int>, Circular, seq<Option<int>>, int, int, set<int>)
      reads this
    {
      (characterDeck, districtDeck, crown, roles, firstToEight, version, discarded)
    }

    ghost predicate Valid()
      reads this, crown
    {
      && TableOk(table)
      && RosterOk(table, players, playerCursor)
      && |roles| == RoleSlots
      && 0 <= turn < RoleSlots
      && (forall k :: 0 <= k < |characterDeck| ==> 0 <= characterDeck[k] < RoleSlots)
      && |districtDeck| >= DrawCount
      && DistrictIds(table, districtDeck)
      && 0 <= crown.value <= crown.max
      && (state == Lobby ==> forall c :: 0 <= c < RoleSlots ==> roles[c].None?)
      && (state != Lobby ==> |players| <= MaxStart && crown.max < RoleSlots && Accounted(characterDeck, roles, discarded))
    }

    /** NewGame without its goroutine: an empty roster, the cursor at 1, and
        then reset. */
    constructor (table: seq<District>)
      requires TableOk(table)
      ensures Valid() && fresh(crown)
      ensures this.table == table && players == [] && playerCursor == 1
      ensures state == Lobby && turn == 0 && firstToEight == 0 && version == 0
      ensures characterDeck == seq(RoleSlots, _ => 0) && districtDeck == seq(|table|, _ => 0)
      ensures roles == seq(RoleSlots, _ => None)
      ensures crown.value == 0 && crown.max == 0
    {
      this.table := table;
      players := [];
      playerCursor := 1;
      turn := 0;
      state := Lobby;
      characterDeck := [];
      districtDeck := [];
      crown := new Circular(0, 0);
      roles := [];
      firstToEight := 0;
      version := 0;
      discarded := {};
      new;
      Reset();
    }

    /** reset: zero-filled decks, empty role slots, the crown counter sized to
        the roster, back to the lobby, and 2 gold and no crown for everyone. */
    method Reset()
      requires TableOk(table) && RosterOk(table, players, playerCursor) && 0 <= turn < RoleSlots
      modifies this
      ensures Valid() && fresh(crown)
      ensures state == Lobby
      ensures characterDeck == seq(RoleSlots, _ => 0) && districtDeck == seq(|table|, _ => 0)
      ensures roles == seq(RoleSlots, _ => None)
      ensures crown.value == 0 && crown.max == |players|
      ensures |players| == |old(players)|
      ensures forall i :: 0 <= i < |players| ==>
        players[i] == old(players)[i].(gold := StartingGold, hasCrown := false)
      ensures playerCursor == old(playerCursor) && turn == old(turn)
      ensures firstToEight == old(firstToEight) && version == old(version) && discarded == old(discarded)
    {
      var ps := RestorePurses(table, players, playerCursor);
      characterDeck := seq(RoleSlots, _ => 0);
      districtDeck := seq(|table|, _ => 0);
      roles := seq(RoleSlots, _ => None);
      crown := new Circular(0, |players|);
      state := Lobby;
      players := ps;
    }

    // ------------------------------------------------------------ roster

    /** What an accepted join leaves: a known uuid rebound to the new
        connection, or a new player with the next Id appended; nothing else
        changes. */
    twostate predicate Joined(uuid: Bytes, ws: Conn)
      reads this
    {
      var i := IndexOf(old(players), uuid);
      && Board() == old(Board())
      && (i >= 0 ==>
            && players == old(players)[i := old(players)[i].(ws := Some(ws), connected := true, ip := ws.ip)]
            && playerCursor == old(playerCursor))
      && (i < 0 ==>
            && players == old(players) + [NewPlayer(uuid, old(playerCursor)).(ws := Some(ws), connected := true, ip := ws.ip)]
            && playerCursor == old(playerCursor) + 1)
    }

    /** handleJoin: a known uuid reconnects; an unknown one is added only in the
        lobby while there are fewer than 10 players, with the next Id. */
    method Join(uuid: Bytes, ws: Conn) returns (updated: bool)
      requires Valid()
      modifies this
      ensures Valid()
      ensures updated <==> IndexOf(old(players), uuid) >= 0 || (old(state) == Lobby && |old(players)| < MaxPlayers)
      ensures !updated ==> unchanged(this)
      ensures updated ==> Joined(uuid, ws)
    {
      var i := Find(players, uuid);
      var ps := players;
      if i == -1 {
        if state != Lobby {
          return false;
        }
        if |ps| >= MaxPlayers {
          return false;
        }
        RosterAdd(table, ps, NewPlayer(uuid, playerCursor), playerCursor);
        ps := ps + [NewPlayer(uuid, playerCursor)];
        playerCursor := playerCursor + 1;
        i := |ps| - 1;
      }
      RosterReplace(table, ps, i, ps[i].(ws := Some(ws), connected := true, ip := ws.ip), playerCursor);
      players := ps[i := ps[i].(ws := Some(ws), connected := true, ip := ws.ip)];
      return true;
    }

    /** What an accepted leave leaves: the first player with this uuid
        removed, the others in order; nothing else changes. */
    twostate predicate Left(uuid: Bytes)
      reads this
    {
      var i := IndexOf(old(players), uuid);
      && 0 <= i
      && players == RemoveAt(old(players), i)
      && Board() == old(Board()) && playerCursor == old(playerCursor)
    }

    /** handleLeave: removes the first player with this uuid, keeping the order
        of the others, in any state. */
    method Leave(uuid: Bytes) returns (updated: bool)
      requires Valid()
      modifies this
      ensures Valid()
      ensures updated <==> IndexOf(old(players), uuid) >= 0
      ensures !updated ==> unchanged(this)
      ensures updated ==> Left(uuid)
    {
      var ps := players;
      var i := 0;
      while i < |ps| && ps[i].uuid != uuid
        invariant 0 <= i <= |ps|
        invariant forall j :: 0 <= j < i ==> ps[j].uuid != uuid
      {
        i := i + 1;
      }
      if i == |ps| {
        return false;
      }
      RosterRemove(table, ps, i, playerCursor);
      players := ps[0..i] + ps[i + 1..];
      return true;
    }

    /** What an accepted disconnect leaves: the player keeps their seat
        without a connection; nothing else changes. */
    twostate predicate Disconnected(uuid: Bytes)
      reads this
    {
      var i := IndexOf(old(players), uuid);
      && 0 <= i
      && players == old(players)[i := old(players)[i].(ws := None, connected := false)]
      && Board() == old(Board()) && playerCursor == old(playerCursor)
    }

    /** handleDisconnect: forgets the connection but keeps the player. */
    method Disconnect(uuid: Bytes) returns (updated: bool)
      requires Valid()
      modifies this
      ensures Valid()
      ensures updated <==> IndexOf(old(players), uuid) >= 0
      ensures !updated ==> unchanged(this)
      ensures updated ==> Disconnected(uuid)
    {
      var i := Find(players, uuid);
      if i == -1 {
        return false;
      }
      RosterReplace(table, players, i, players[i].(ws := None, connected := false), playerCursor);
      players := players[i := players[i].(ws := None, connected := false)];
      return true;
    }

    /** What an accepted rename leaves: the decoded name, clipped to 8 bytes,
        stored for the sender; nothing else changes. */
    twostate predicate Renamed(uuid: Bytes, name: Option<Bytes>)
      reads this
    {
      var i := IndexOf(old(players), uuid);
      && 0 <= i && name.Some?
      && players == old(players)[i := old(players)[i].(name := ClipName(name.value))]
      && Board() == old(Board()) && playerCursor == old(playerCursor)
    }

    /** handleName: a named player may rename only in the lobby; the stored
        name is the decoded name clipped to 8 bytes. */
    method Name(uuid: Bytes, name: Option<Bytes>) returns (updated: bool)
      requires Valid()
      requires IndexOf(players, uuid) >= 0
      modifies this
      ensures Valid()
      ensures var i := IndexOf(old(players), uuid);
        updated <==> (old(state) == Lobby || old(players)[i].name == []) && name.Some?
      ensures !updated ==> unchanged(this)
      ensures updated ==> Renamed(uuid, name)
    {
      var i := Find(players, uuid);
      if state != Lobby && players[i].name != [] {
        return false;
      }
      if name.None? {
        return false;
      }
      RosterReplace(table, players, i, players[i].(name := ClipName(name.value)), playerCursor);
      players := players[i := players[i].(name := ClipName(name.value))];
      return true;
    }

    // ------------------------------------------------------------ start

    /** The checks handleStart makes before it changes anything. */
    predicate StartReady(cmdVersion: int)
      reads this
    {
      version == cmdVersion && state == Lobby && MinStart <= |players| <= MaxStart
    }

    /** The three shuffles, and someone left to seat (seat 0 is dereferenced). */
    predicate StartSafe(walk: seq<int>, characters: seq<int>, districts: seq<int>)
      reads this
    {
      && IsPerm(walk, |players|)
      && IsPerm(characters, RoleSlots)
      && IsPerm(districts, |table|)
      && exists i :: 0 <= i < |players| && Stays(players[i])
    }

    /** What an accepted start leaves: the seated, crowned and dealt roster,
        the draft phase, a fresh crown counter at seat 0, the character deck
        without the card set aside, and the districts left after dealing. */
    twostate predicate Started(walk: seq<int>, characters: seq<int>, districts: seq<int>)
      reads this, crown
      requires old(Valid()) && old(state == Lobby && MinStart <= |players| <= MaxStart)
      requires old(StartSafe(walk, characters, districts))
    {
      && players == Dealt(Crowned(Seat(old(players), walk)), districts)
      && state == Roles
      && fresh(crown) && crown.value == 0 && crown.max == |players|
      && characterDeck == characters[1..] && discarded == {characters[0]}
      && districtDeck == districts[HandSize * |players|..]
      && turn == old(turn) && roles == old(roles) && playerCursor == old(playerCursor)
      && firstToEight == old(firstToEight) && version == old(version)
    }

    /** handleStart: seat the bots and connected players in the order of a
        random walk, crown seat 0, shuffle both decks, set one character aside
        face down, deal four districts to each seat, and start the draft. */
    method Start(cmdVersion: int, walk: seq<int>, characters: seq<int>, districts: seq<int>)
      returns (updated: bool)
      requires Valid()
      requires StartReady(cmdVersion) ==> StartSafe(walk, characters, districts)
      modifies this
      ensures Valid()
      ensures updated <==> old(StartReady(cmdVersion))
      ensures !updated ==> unchanged(this)
      ensures updated ==> Started(walk, characters, districts)
    {
      if version != cmdVersion {
        return false;
      }
      if state != Lobby {
        return false;
      }
      if |players| < MinStart || |players| > MaxStart {
        return false;
      }
      var seated := SeatPlayers(players, walk);
      SeatedRoster(table, players, walk, playerCursor);
      seated := seated[0 := seated[0].(hasCrown := true)];
      var dealt, rest := Deal(seated, districts);
      DealtRoster(table, seated, districts, playerCursor);
      Open(dealt, characters, rest);
      return true;
    }

    /** The writes handleStart makes once the roster is seated and dealt: the
        draft phase, a crown counter sized to the roster, one character set
        aside and the rest of the districts left to draw. */
    method Open(dealt: seq<Player>, characters: seq<int>, rest: seq<int>)
      requires TableOk(table) && RosterOk(table, dealt, playerCursor) && |dealt| <= MaxStart
      requires IsPerm(characters, RoleSlots) && |rest| >= DrawCount && DistrictIds(table, rest)
      requires |roles| == RoleSlots && (forall c :: 0 <= c < RoleSlots ==> roles[c].None?) && 0 <= turn < RoleSlots
      modifies this
      ensures Valid() && fresh(crown)
      ensures players == dealt && state == Roles && crown.value == 0 && crown.max == |dealt|
      ensures characterDeck == characters[1..] && discarded == {characters[0]} && districtDeck == rest
      ensures turn == old(turn) && roles == old(roles) && playerCursor == old(playerCursor)
      ensures firstToEight == old(firstToEight) && version == old(version)
    {
      DraftOpens(characters, roles);
      state := Roles;
      players := dealt;
      crown := new Circular(0, |dealt|);
      characterDeck := characters[1..];
      discarded := {characters[0]};
      districtDeck := rest;
    }

    // ------------------------------------------------------------ draft

    /** The conditions under which the corrected handleChoose acts. */
    predicate DraftPick(sender: Bytes, choice: Option<int>)
      reads this
    {
      && turn == IndexOf(players, sender)
      && state == Roles
      && choice.Some? && ValidChoice(choice.value, characterDeck)
      && 2 <= |characterDeck| <= 7
    }

    /** handleChoose exactly as written: the choice is decoded into a copy of
        the local variable rather than through its address, which json.Unmarshal
        always refuses, so no draft command gets past the decode step,
        whatever its payload. */
    method ChooseAsWritten(sender: Bytes, payload: Bytes) returns (updated: bool)
      ensures !updated
    {
      var i := Find(players, sender);
      if turn != i || state != Roles {
        return false;
      }
      // decoding into a value rather than an address is an error
      return false;
    }

    /** handleChoose with the choice decoded through its address and the range
        guard excluding len(CharacterDeck): the two-player draft table. */
    method Choose(sender: Bytes, choice: Option<int>) returns (updated: bool)
      requires Valid()
      modifies this
      ensures Valid() && DraftFrame() == old(DraftFrame())
      ensures updated <==> old(DraftPick(sender, choice))
      ensures !updated ==> unchanged(this)
      ensures updated ==> Chosen(sender, choice)
    {
      var i := Find(players, sender);
      if turn != i || state != Roles {
        return false;
      }
      if choice.None? {
        return false;
      }
      var c := choice.value;
      if c >= |characterDeck| || c < 0 {
        return false;
      }
      var n := |characterDeck|;
      if n == 7 || n == 6 || n == 4 {
        KeepPick(c, players[i].id, n == 7);
      } else if n == 5 || n == 3 {
        SetAside(c);
      } else if n == 2 {
        LastPick(c, players[i].id);
      } else {
        return false;
      }
      return true;
    }

    /** What an accepted pick leaves, per deck size: the picker's character
        goes into its slot (7, 6, 4), is set aside (5, 3), or goes into its
        slot with the other one set aside and play starting (2); players,
        decks of districts and the crown stay as they were. */
    twostate predicate Chosen(sender: Bytes, choice: Option<int>)
      reads this
      requires old(Valid()) && old(DraftPick(sender, choice))
    {
      && DraftFrame() == old(DraftFrame())
      && var deck, c := old(characterDeck), choice.value;
         var id := old(players)[IndexOf(old(players), sender)].id;
         match DraftMove(|deck|)
         case Keep =>
           && roles == old(roles)[deck[c] := Some(id)] && discarded == old(discarded)
           && characterDeck == RemoveAt(deck, c) && state == Roles
           && turn == if PassesTurn(|deck|) then NextSeat(old(turn), |players|) else old(turn)
         case Discard =>
           && roles == old(roles) && discarded == old(discarded) + {deck[c]}
           && characterDeck == RemoveAt(deck, c) && state == Roles
           && turn == NextSeat(old(turn), |players|)
         case Last =>
           && roles == old(roles)[deck[c] := Some(id)]
           && discarded == old(discarded) + (set x | x in deck && x != deck[c])
           && characterDeck == [] && state == GoldOrDraw && IsLastAssigned(roles, turn)
         case Refuse => false
    }

    /** Everything the draft leaves alone. */
    ghost function DraftFrame(): (seq<Player>, int, Circular, seq<int>, int, int)
      reads this
    {
      (players, playerCursor, crown, districtDeck, firstToEight, version)
    }

    /** Draft sizes 7, 6 and 4: the character at `c` goes into its role slot
        with the picker's Id, and at size 7 the next seat picks. */
    method KeepPick(c: nat, id: int, pass: bool)
      requires Valid() && state == Roles && c < |characterDeck|
      modifies this
      ensures Valid() && DraftFrame() == old(DraftFrame())
      ensures roles == old(roles)[old(characterDeck)[c] := Some(id)] && discarded == old(discarded)
      ensures characterDeck == RemoveAt(old(characterDeck), c) && state == Roles
      ensures turn == if pass then NextSeat(old(turn), |players|) else old(turn)
    {
      AccountedPick(characterDeck, roles, discarded, c, id);
      roles := roles[characterDeck[c] := Some(id)];
      characterDeck := characterDeck[..c] + characterDeck[c + 1..];
      if pass {
        turn := NextSeat(turn, |players|);
      }
    }

    /** Draft sizes 5 and 3: the character at `c` is set aside and the next
        seat picks. */
    method SetAside(c: nat)
      requires Valid() && state == Roles && c < |characterDeck|
      modifies this
      ensures Valid() && DraftFrame() == old(DraftFrame())
      ensures roles == old(roles) && discarded == old(discarded) + {old(characterDeck)[c]}
      ensures characterDeck == RemoveAt(old(characterDeck), c) && state == Roles
      ensures turn == NextSeat(old(turn), |players|)
    {
      AccountedDiscard(characterDeck, roles, discarded, c);
      discarded := discarded + {characterDeck[c]};
      characterDeck := characterDeck[..c] + characterDeck[c + 1..];
      turn := NextSeat(turn, |players|);
    }

    /** Draft size 2: the character at `c` goes into its role slot, the other
        one is set aside, and play starts with the highest occupied slot. */
    method LastPick(c: nat, id: int)
      requires Valid() && state == Roles && c < |characterDeck|
      modifies this
      ensures Valid() && DraftFrame() == old(DraftFrame())
      ensures roles == old(roles)[old(characterDeck)[c] := Some(id)]
      ensures discarded == old(discarded) + (set x | x in old(characterDeck) && x != old(characterDeck)[c])
      ensures characterDeck == [] && state == GoldOrDraw && IsLastAssigned(roles, turn)
    {
      var deck, picked := characterDeck, characterDeck[c];
      ghost var aside := set x | x in deck && x != picked;
      AccountedLastPick(deck, roles, discarded, c, id);
      var rs := roles[picked := Some(id)];
      var t := LastAssigned(rs, turn);
      roles := rs;
      discarded := discarded + aside;
      characterDeck := [];
      state := GoldOrDraw;
      turn := t;
    }

    // ------------------------------------------------------------ turns

    /** The ownership test of the turn handlers as written: the sender's seat
        index is compared with the Id stored in the current role slot. */
    predicate HoldsTurn(seat: int)
      reads this
      requires |roles| == RoleSlots && 0 <= turn < RoleSlots && roles[turn].Some?
    {
      seat == roles[turn].value
    }

    /** A turn handler dereferences the sender and roles[turn]. */
    predicate TurnSafe(sender: Bytes)
      reads this
    {
      IndexOf(players, sender) >= 0 && |roles| == RoleSlots && 0 <= turn < RoleSlots && roles[turn].Some?
    }

    /** In putCardBack the hand is cut by one, and indexed at len-2 for choice 0. */
    predicate ActionSafe(sender: Bytes, choice: Option<int>)
      reads this
    {
      && TurnSafe(sender)
      && (HoldsTurn(IndexOf(players, sender)) && state == PutCardBack && choice.Some? ==>
            |players[IndexOf(players, sender)].hand| >= if choice.value == 0 then DrawCount else 1)
    }

    /** What an accepted action leaves: in goldOrDraw, two more gold and the
        build phase (choice 0) or the top two districts added to the hand and
        the putCardBack phase; in putCardBack, one of the last two cards put
        back and the build phase. Decks, turn and cursor stay as they were. */
    twostate predicate Acted(sender: Bytes, choice: Option<int>)
      reads this
      requires old(Valid()) && old(ActionSafe(sender, choice)) && old(HoldsTurn(IndexOf(players, sender)))
      requires old(state == GoldOrDraw || state == PutCardBack) && choice.Some?
    {
      var seat := IndexOf(old(players), sender);
      var p := old(players)[seat];
      && Decks() == old(Decks()) && turn == old(turn) && playerCursor == old(playerCursor)
      && (old(state) == GoldOrDraw && choice.value == 0 ==>
            players == old(players)[seat := p.(gold := p.gold + 2)] && state == Build)
      && (old(state) == GoldOrDraw && choice.value != 0 ==>
            players == old(players)[seat := p.(hand := p.hand + old(districtDeck)[..DrawCount])]
            && state == PutCardBack)
      && (old(state) == PutCardBack ==>
            players == old(players)[seat := p.(hand := PutBack(p.hand, choice.value))] && state == Build)
    }

    /** handleAction: in goldOrDraw take 2 gold or draw the top two districts;
        in putCardBack give one of the last two cards back. */
    method Action(sender: Bytes, choice: Option<int>) returns (updated: bool)
      requires Valid()
      requires ActionSafe(sender, choice)
      modifies this
      ensures Valid()
      ensures Decks() == old(Decks()) && turn == old(turn) && playerCursor == old(playerCursor)
      ensures var seat := IndexOf(old(players), sender);
        updated <==> old(HoldsTurn(seat)) && (old(state) == GoldOrDraw || old(state) == PutCardBack) && choice.Some?
      ensures !updated ==> unchanged(this)
      ensures updated ==> Acted(sender, choice)
    {
      var i := Find(players, sender);
      if i != roles[turn].value {
        return false;
      }
      if state.Ordinal() < GoldOrDraw.Ordinal() || state.Ordinal() > PutCardBack.Ordinal() {
        return false;
      }
      if state == GoldOrDraw {
        if choice.None? {
          return false;
        }
        TakeOrDraw(i, choice.value);
        return true;
      }
      if choice.None? {
        return false;
      }
      PutOneBack(i, choice.value);
      return true;
    }

    /** goldOrDraw: choice 0 takes two gold and moves on to building; any
        other choice draws the top two districts, which stay on the deck. */
    method TakeOrDraw(i: nat, choice: int)
      requires Valid() && i < |players| && state == GoldOrDraw
      modifies this
      ensures Valid() && Decks() == old(Decks()) && turn == old(turn) && playerCursor == old(playerCursor)
      ensures var p := old(players)[i];
        && (choice == 0 ==> players == old(players)[i := p.(gold := p.gold + 2)] && state == Build)
        && (choice != 0 ==>
              players == old(players)[i := p.(hand := p.hand + districtDeck[..DrawCount])] && state == PutCardBack)
    {
      var p := players[i];
      if choice == 0 {
        Commit(i, p.(gold := p.gold + 2), Build);
        return;
      }
      var drawn := districtDeck[..DrawCount];
      assert DistrictIds(table, p.hand + drawn);
      Commit(i, p.(hand := p.hand + drawn), PutCardBack);
    }

    /** putCardBack: one of the last two cards of the hand goes back. */
    method PutOneBack(i: nat, choice: int)
      requires Valid() && i < |players| && state == PutCardBack
      requires |players[i].hand| >= if choice == 0 then DrawCount else 1
      modifies this
      ensures Valid() && Decks() == old(Decks()) && turn == old(turn) && playerCursor == old(playerCursor)
      ensures var p := old(players)[i];
        players == old(players)[i := p.(hand := PutBack(p.hand, choice))] && state == Build
    {
      var p := players[i];
      var h := ReturnCard(p.hand, choice);
      PutBackIds(table, p.hand, choice);
      Commit(i, p.(hand := h), Build);
    }

    /** Writes one player's new record and the next phase: the way the turn
        handlers finish. */
    method Commit(i: nat, q: Player, next: State)
      requires Valid() && i < |players| && state != Lobby && next != Lobby
      requires q.uuid == players[i].uuid && q.id == players[i].id && Holdings(table, q)
      modifies this
      ensures Valid()
      ensures players == old(players)[i := q] && state == next
      ensures Decks() == old(Decks()) && turn == old(turn) && playerCursor == old(playerCursor)
    {
      RosterReplace(table, players, i, q, playerCursor);
      players := players[i := q];
      state := next;
    }

    /** The chosen hand index is used unchecked (only -1 is special). */
    predicate BuildSafe(sender: Bytes, choice: Option<int>)
      reads this
    {
      && TurnSafe(sender)
      && (HoldsTurn(IndexOf(players, sender)) && state == Build && choice.Some? && choice.value != -1 ==>
            0 <= choice.value < |players[IndexOf(players, sender)].hand|)
    }

    /** What an accepted build leaves: the special phase, and unless the
        choice is -1 the chosen card paid for, moved from the hand (by swap
        removal) into the city. Decks, turn and cursor stay as they were. */
    twostate predicate Built(sender: Bytes, choice: Option<int>)
      reads this
      requires old(Valid()) && old(BuildSafe(sender, choice)) && old(HoldsTurn(IndexOf(players, sender)))
      requires old(state) == Build && choice.Some?
    {
      var seat := IndexOf(old(players), sender);
      var p := old(players)[seat];
      && Decks() == old(Decks()) && turn == old(turn) && playerCursor == old(playerCursor)
      && state == Special
      && (choice.value == -1 ==> players == old(players))
      && (choice.value != -1 ==>
            var card := p.hand[choice.value];
            players == old(players)[seat := p.(gold := p.gold - table[card].value,
                                               districts := p.districts + [card],
                                               hand := SwapRemove(p.hand, choice.value))])
    }

    /** handleBuild: -1 skips; otherwise the chosen card is built if the player
        can pay for it and has no district of that name yet. */
    method BuildDistrict(sender: Bytes, choice: Option<int>) returns (updated: bool)
      requires Valid()
      requires BuildSafe(sender, choice)
      modifies this
      ensures Valid()
      ensures Decks() == old(Decks()) && turn == old(turn) && playerCursor == old(playerCursor)
      ensures !updated ==> unchanged(this)
      ensures var seat := IndexOf(old(players), sender);
        !old(HoldsTurn(seat)) || old(state) != Build || choice.None? ==> !updated
      ensures var seat := IndexOf(old(players), sender);
        old(HoldsTurn(seat)) && old(state) == Build && choice == Some(-1) ==> updated
      ensures var seat := IndexOf(old(players), sender);
        var p := old(players)[seat];
        old(HoldsTurn(seat)) && old(state) == Build && choice.Some? && choice.value != -1 ==>
          var card := p.hand[choice.value];
          updated <==> table[card].value <= p.gold && !NameBuilt(table, p.districts, table[card].name)
      ensures updated ==> Built(sender, choice)
    {
      var i := Find(players, sender);
      if i != roles[turn].value {
        return false;
      }
      if state != Build {
        return false;
      }
      if choice.None? {
        return false;
      }
      var c := choice.value;
      if c == -1 {
        state := Special;
        return true;
      }
      var p := players[i];
      var chosen := table[p.hand[c]];
      if p.gold < chosen.value {
        return false;
      }
      var k := 0;
      while k < |p.districts|
        invariant 0 <= k <= |p.districts|
        invariant forall j :: 0 <= j < k ==> table[p.districts[j]].name != chosen.name
        modifies {}
      {
        if table[p.districts[k]].name == chosen.name {
          return false;
        }
        k := k + 1;
      }
      var hand := p.hand;
      var built := p.districts + [hand[c]];
      hand := hand[c := hand[|hand| - 1]];
      hand := hand[..|hand| - 1];
      assert hand == SwapRemove(p.hand, c);
      BuildKeepsNames(table, p.districts, p.hand[c]);
      SubIds(table, hand, p.hand);
      Commit(i, p.(gold := p.gold - chosen.value, districts := built, hand := hand), Special);
      return true;
    }

    /** What an accepted power leaves: play passes to the next occupied role
        slot, or, when none is left, the round ends: everyone is rescored, the
        game ends if some city is complete, and otherwise the draft restarts
        at the crown's seat and the crown steps. */
    twostate predicate Powered()
      reads this, crown
      requires old(Valid())
    {
      && Decks() == old(Decks()) && playerCursor == old(playerCursor)
      && (HasLaterRole(roles, old(turn)) ==>
            && old(turn) < turn < RoleSlots && roles[turn].Some?
            && (forall j :: old(turn) < j < turn ==> roles[j].None?)
            && players == old(players) && state == old(state) && unchanged(crown))
      && (!HasLaterRole(roles, old(turn)) ==>
            && |players| == |old(players)|
            && (forall i :: 0 <= i < |players| ==>
                  players[i] == old(players)[i].(score := Score(table, firstToEight, old(players)[i])))
            && (state == End <==>
                  old(state) == End || exists i :: 0 <= i < |players| && |players[i].districts| >= CompleteCity)
            && (state != End ==>
                  state == Roles && turn == old(crown.value)
                  && crown.value == Next(old(crown.value), crown.max) && crown.max == old(crown.max))
            && (state == End ==> turn == old(turn) && unchanged(crown)))
    }

    /** handleSpecial: no phase check. If the current character's resolver
        accepts, play passes to the next occupied role slot; when there is none
        the round ends: everyone is scored, and the game ends if some city has
        eight districts, otherwise the draft restarts at the crown's seat. */
    method Powers(sender: Bytes, choice: Option<int>, accepts: bool) returns (updated: bool)
      requires Valid()
      requires TurnSafe(sender)
      modifies this, crown
      ensures Valid()
      ensures Decks() == old(Decks()) && playerCursor == old(playerCursor)
      ensures updated <==> old(HoldsTurn(IndexOf(players, sender))) && choice.Some? && accepts
      ensures !updated ==> unchanged(this) && unchanged(crown)
      ensures updated ==> Powered()
    {
      var i := Find(players, sender);
      if i != roles[turn].value {
        return false;
      }
      if choice.None? {
        return false;
      }
      if !accepts {
        return false;
      }
      var k := NextRole(roles, turn);
      if k < RoleSlots {
        turn := k;
        return true;
      }
      EndRound();
      return true;
    }

    /** The end of a round in handleSpecial: everyone is scored; the game ends
        if some city is complete, otherwise the draft restarts at the seat the
        crown counter gives. */
    method EndRound()
      requires Valid() && state != Lobby
      modifies this, crown
      ensures Valid()
      ensures Decks() == old(Decks()) && playerCursor == old(playerCursor)
      ensures |players| == |old(players)|
      ensures forall i :: 0 <= i < |players| ==>
        players[i] == old(players)[i].(score := Score(table, firstToEight, old(players)[i]))
      ensures state == End <==>
        old(state) == End || exists i :: 0 <= i < |players| && |players[i].districts| >= CompleteCity
      ensures state != End ==>
        && state == Roles && turn == old(crown.value)
        && crown.value == Next(old(crown.value), crown.max) && crown.max == old(crown.max)
      ensures state == End ==> turn == old(turn) && unchanged(crown)
    {
      var scored, complete := ScoreAll(table, firstToEight, players);
      RosterRelabel(table, players, scored, playerCursor);
      players := scored;
      if complete {
        state := End;
      }
      if state != End {
        state := Roles;
        turn := crown.Inc();
      }
    }

    // ------------------------------------------------------------ the loop

    /** What a command's handler needs in order not to panic. */
    predicate Safe(cmd: Command, chance: Chance)
      reads this
    {
      match cmd.kind
      case CmdName(_) => IndexOf(players, cmd.sender) >= 0
      case CmdStart =>
        StartReady(cmd.version) ==> StartSafe(chance.seating, chance.characters, chance.districts)
      case CmdAction(choice) => ActionSafe(cmd.sender, choice)
      case CmdBuild(choice) => BuildSafe(cmd.sender, choice)
      case CmdPowers(_) => TurnSafe(cmd.sender)
      case _ => true
    }

    /** When the handler run dispatches a command to accepts it, as each
        handler decides: a known or admissible joiner, a known sender, a
        rename in the lobby or of an unnamed player, handleStart's checks, the
        corrected draft pick, and the turn owner acting in the right phase
        (for powers, with the resolver's verdict). Stop and unknown commands
        are never handled. */
    ghost predicate Accepts(cmd: Command, chance: Chance)
      reads this, crown
      requires Valid() && Safe(cmd, chance)
    {
      var i := IndexOf(players, cmd.sender);
      match cmd.kind
      case CmdJoin => i >= 0 || (state == Lobby && |players| < MaxPlayers)
      case CmdLeave => i >= 0
      case CmdDisconnect => i >= 0
      case CmdName(name) => (state == Lobby || players[i].name == []) && name.Some?
      case CmdStart => StartReady(cmd.version)
      case CmdChoose(choice) => DraftPick(cmd.sender, choice)
      case CmdAction(choice) => HoldsTurn(i) && (state == GoldOrDraw || state == PutCardBack) && choice.Some?
      case CmdBuild(choice) =>
        && HoldsTurn(i) && state == Build && choice.Some?
        && (choice.value != -1 ==>
              var card := players[i].hand[choice.value];
              table[card].value <= players[i].gold && !NameBuilt(table, players[i].districts, table[card].name))
      case CmdPowers(choice) => HoldsTurn(i) && choice.Some? && chance.resolverAccepts
      case CmdStop => false
      case CmdOther(_) => false
    }

    /** What an accepted command leaves: the new state its handler produces. */
    twostate predicate Effect(cmd: Command, chance: Chance)
      reads this, crown
      requires old(Valid()) && old(Safe(cmd, chance)) && old(Accepts(cmd, chance))
    {
      match cmd.kind
      case CmdJoin => Joined(cmd.sender, cmd.ws)
      case CmdLeave => Left(cmd.sender)
      case CmdDisconnect => Disconnected(cmd.sender)
      case CmdName(name) => Renamed(cmd.sender, name)
      case CmdStart => Started(chance.seating, chance.characters, chance.districts)
      case CmdChoose(choice) => Chosen(cmd.sender, choice)
      case CmdAction(choice) => Acted(cmd.sender, choice)
      case CmdBuild(choice) => Built(cmd.sender, choice)
      case CmdPowers(_) => Powered()
      case CmdStop => false
      case CmdOther(_) => false
    }

    /** One iteration of run: drop a stale command, otherwise dispatch it by
        kind; the caller broadcasts when the outcome is Updated. */
    method Step(cmd: Command, chance: Chance) returns (outcome: Outcome)
      requires Valid()
      requires cmd.version == version ==> Safe(cmd, chance)
      modifies this, crown
      ensures Valid()
      ensures cmd.version != old(version) ==> outcome == Stale && unchanged(this) && unchanged(old(crown))
      ensures cmd.version == old(version) && cmd.kind.CmdStop? ==>
        outcome == Stopped && unchanged(this) && unchanged(old(crown))
      ensures cmd.version == old(version) && cmd.kind.CmdOther? ==>
        outcome == Unknown && unchanged(this) && unchanged(old(crown))
      ensures cmd.version == old(version) && !cmd.kind.CmdStop? && !cmd.kind.CmdOther? ==>
        outcome == Rejected || outcome == Updated
      ensures outcome == Rejected ==> unchanged(this) && unchanged(old(crown))
      ensures outcome == Updated <==> cmd.version == old(version) && old(Accepts(cmd, chance))
      ensures outcome == Updated ==> Effect(cmd, chance)
      ensures old(state) == End ==> state == End
      ensures version == old(version) && playerCursor >= old(playerCursor)
    {
      if version != cmd.version {
        return Stale;
      }
      if cmd.kind.CmdStop? {
        return Stopped;
      }
      if cmd.kind.CmdOther? {
        return Unknown;
      }
      var updated := Dispatch(cmd, chance);
      outcome := if updated then Updated else Rejected;
    }

    /** run's dispatch of a command for the current version to its handler. */
    method Dispatch(cmd: Command, chance: Chance) returns (updated: bool)
      requires Valid() && cmd.version == version && Safe(cmd, chance)
      requires !cmd.kind.CmdStop? && !cmd.kind.CmdOther?
      modifies this, crown
      ensures Valid()
      ensures updated <==> old(Accepts(cmd, chance))
      ensures updated ==> Effect(cmd, chance)
      ensures !updated ==> unchanged(this) && unchanged(old(crown))
      ensures old(state) == End ==> state == End
      ensures version == old(version) && playerCursor >= old(playerCursor)
    {
      if cmd.kind.CmdJoin? || cmd.kind.CmdLeave? || cmd.kind.CmdDisconnect? || cmd.kind.CmdName? {
        updated := HandleRoster(cmd, chance);
      } else {
        updated := HandlePlay(cmd, chance);
      }
    }

    /** The roster half of run's dispatch: join, leave, disconnect and name. */
    method HandleRoster(cmd: Command, chance: Chance) returns (updated: bool)
      requires Valid() && cmd.version == version && Safe(cmd, chance)
      requires cmd.kind.CmdJoin? || cmd.kind.CmdLeave? || cmd.kind.CmdDisconnect? || cmd.kind.CmdName?
      modifies this
      ensures Valid()
      ensures updated <==> old(Accepts(cmd, chance))
      ensures updated ==> Effect(cmd, chance)
      ensures !updated ==> unchanged(this)
      ensures Board() == old(Board()) && playerCursor >= old(playerCursor)
    {
      match cmd.kind {
        case CmdJoin =>
          updated := Join(cmd.sender, cmd.ws);
        case CmdLeave =>
          updated := Leave(cmd.sender);
        case CmdDisconnect =>
          updated := Disconnect(cmd.sender);
        case CmdName(name) =>
          updated := Name(cmd.sender, name);
      }
    }

    /** The game half of run's dispatch: start, choose (to the corrected
        handler), action, build and powers. */
    method HandlePlay(cmd: Command, chance: Chance) returns (updated: bool)
      requires Valid() && cmd.version == version && Safe(cmd, chance)
      requires cmd.kind.CmdStart? || cmd.kind.CmdChoose? || cmd.kind.CmdAction? || cmd.kind.CmdBuild? || cmd.kind.CmdPowers?
      modifies this, crown
      ensures Valid()
      ensures updated <==> old(Accepts(cmd, chance))
      ensures updated ==> Effect(cmd, chance)
      ensures !updated ==> unchanged(this) && unchanged(old(crown))
      ensures old(state) == End ==> state == End
      ensures version == old(version) && playerCursor == old(playerCursor)
    {
      if cmd.kind.CmdStart? || cmd.kind.CmdChoose? {
        updated := HandleDraft(cmd, chance);
      } else {
        updated := HandleTurn(cmd, chance);
      }
    }

    /** Start, which opens the draft, and choose, which runs it. */
    method HandleDraft(cmd: Command, chance: Chance) returns (updated: bool)
      requires Valid() && cmd.version == version && Safe(cmd, chance)
      requires cmd.kind.CmdStart? || cmd.kind.CmdChoose?
      modifies this, crown
      ensures Valid()
      ensures updated <==> old(Accepts(cmd, chance))
      ensures updated ==> Effect(cmd, chance)
      ensures !updated ==> unchanged(this) && unchanged(old(crown))
      ensures old(state) == End ==> state == End
      ensures version == old(version) && playerCursor == old(playerCursor)
    {
      if cmd.kind.CmdStart? {
        updated := Start(cmd.version, chance.seating, chance.characters, chance.districts);
      } else {
        updated := Choose(cmd.sender, cmd.kind.choice);
      }
    }

    /** Action, build and powers: the three steps of a character's turn. */
    method HandleTurn(cmd: Command, chance: Chance) returns (updated: bool)
      requires Valid() && cmd.version == version && Safe(cmd, chance)
      requires cmd.kind.CmdAction? || cmd.kind.CmdBuild? || cmd.kind.CmdPowers?
      modifies this, crown
      ensures Valid()
      ensures updated <==> old(Accepts(cmd, chance))
      ensures updated ==> Effect(cmd, chance)
      ensures !updated ==> unchanged(this) && unchanged(old(crown))
      ensures old(state) == End ==> state == End
      ensures version == old(version) && playerCursor == old(playerCursor)
    {
      match cmd.kind {
        case CmdAction(choice) =>
          updated := Action(cmd.sender, choice);
        case CmdBuild(choice) =>
          updated := BuildDistrict(cmd.sender, choice);
        case CmdPowers(choice) =>
          updated := Powers(cmd.sender, choice, chance.resolverAccepts);
      }
    }
  }
}

=== FILE: common.dfy ===
/** Values shared by both game sessions: optional values, Go strings as byte
    sequences, connection handles, the outcome of one command, and the two
    string operations the handlers use (name clipping and upper-casing). */
module Common {

  datatype Option<+T> = None | Some(value: T)

  /** A Go string is a sequence of bytes. */
  newtype byte = x: int | 0 <= x < 256
  type Bytes = seq<byte>

  /** The connection a command arrived on; `ip` is what its `Ip()` reports. */
  datatype Conn = Conn(id: nat, ip: Bytes)

  /** What the run loop does with one command. */
  datatype Outcome =
    | Stale      // version differs from the game's: skipped before dispatch
    | Stopped    // the stop command: the loop returns
    | Unknown    // unrecognised kind: logged and skipped
    | Rejected   // the handler returned false: no broadcast
    | Updated    // the handler returned true: everyone gets the new state

  /** Longest display name, in bytes. */
  const NameLimit := 8

  /** A name longer than 8 bytes is cut to its first 8 bytes. */
  function ClipName(name: Bytes): (r: Bytes)
    ensures |r| == if |name| > NameLimit then NameLimit else |name|
    ensures r == name[..|r|]
  {
    if |name| > NameLimit then name[0..NameLimit] else name
  }

  /** One step of a counter that runs over 0..max inclusive: one more, or 0
      once it would pass `max` (Circular.Inc, and JustOne's guesser cursor). */
  function Next(v: int, max: int): (r: int)
    ensures r == 0 || r == v + 1
    ensures v < max ==> r == v + 1
    ensures 0 <= v <= max ==> 0 <= r <= max
    ensures v >= max ==> r == 0
  {
    if v + 1 > max then 0 else v + 1
  }

  predicate IsLower(b: byte) { 'a' as byte <= b <= 'z' as byte }

  function UpperByte(b: byte): (r: byte)
  {
    if IsLower(b) then b - 32 else b
  }

  /** Upper-cases the ASCII letters of `s` and leaves every other byte alone. */
  function ToUpper(s: Bytes): (r: Bytes)
    ensures |r| == |s|
    ensures forall i :: 0 <= i < |s| ==> !IsLower(r[i])
    ensures forall i :: 0 <= i < |s| && !IsLower(s[i]) ==> r[i] == s[i]
    ensures forall i :: 0 <= i < |s| && IsLower(s[i]) ==> r[i] as int == s[i] as int - 32
  {
    if s == [] then [] else [UpperByte(s[0])] + ToUpper(s[1..])
  }
}

=== FILE: justone.dfy ===
/** The JustOne session (justone/justone.go): the roster handlers and the
    ready / write / reconcile / guess cycle, as methods of a `Game` whose
    fields they update.  As written, no handler ever enters the writing
    phase or names a guesser, so only the roster handlers and handleReady
    can change anything (see `Game.Step`). */
module JustOne {
  import opened Common
  import opened Seqs

  const MaxPlayers := 10

  /** The answer that marks a clue as a duplicate in handleReconcile. */
  const Dupe: Bytes := ['d' as byte, 'u' as byte, 'p' as byte, 'e' as byte]

  datatype State = Lobby | Writing | Guessing | Reconciling | End

  datatype Player = Player(
    ws: Option<Conn>,
    uuid: Bytes,
    id: int,
    name: Bytes,
    connected: bool,
    ip: Bytes,
    ready: bool,
    clue: Bytes,
    isGuesser: bool)

  /** `&Player{Uuid: uuid, Id: id}`: every other field at its zero value. */
  function NewPlayer(uuid: Bytes, id: int): (r: Player)
  {
    Player(None, uuid, id, [], false, [], false, [], false)
  }

  /** The roster is unique by uuid and by Id, and every Id came from the cursor. */
  predicate RosterIds(ps: seq<Player>, cursor: int)
  {
    && (forall i :: 0 <= i < |ps| ==> 1 <= ps[i].id < cursor)
    && (forall i, j :: 0 <= i < j < |ps| ==> ps[i].uuid != ps[j].uuid && ps[i].id != ps[j].id)
  }

  /** `qs` is `ps` with the same players in the same seats and the same
      guesser: only connections, names, readiness and clues differ. */
  predicate SameKeys(ps: seq<Player>, qs: seq<Player>)
  {
    && |qs| == |ps|
    && forall i :: 0 <= i < |ps| ==>
         qs[i].uuid == ps[i].uuid && qs[i].id == ps[i].id && qs[i].isGuesser == ps[i].isGuesser
  }

  /** Identity is all the roster invariant looks at. */
  lemma KeysKeepRoster(ps: seq<Player>, qs: seq<Player>, cursor: int)
    requires RosterIds(ps, cursor) && SameKeys(ps, qs)
    ensures RosterIds(qs, cursor)
  {
    forall i, j | 0 <= i < j < |qs|
      ensures qs[i].uuid != qs[j].uuid && qs[i].id != qs[j].id
    {
      assert ps[i].uuid != ps[j].uuid && ps[i].id != ps[j].id;
    }
  }

  /** The position Find reports: the first player with this uuid, or -1. */
  function IndexOf(ps: seq<Player>, uuid: Bytes): (i: int)
    ensures -1 <= i < |ps|
    ensures i == -1 <==> forall j :: 0 <= j < |ps| ==> ps[j].uuid != uuid
    ensures 0 <= i ==> ps[i].uuid == uuid && forall j :: 0 <= j < i ==> ps[j].uuid != uuid
  {
    if ps == [] then -1
    else if ps[0].uuid == uuid then 0
    else
      var k := IndexOf(ps[1..], uuid);
      if k == -1 then -1 else k + 1
  }

  /** Find: a linear scan that stops at the first match. */
  method Find(ps: seq<Player>, uuid: Bytes) returns (i: int)
    ensures i == IndexOf(ps, uuid)
  {
    i := 0;
    while i < |ps|
      invariant 0 <= i <= |ps|
      invariant forall j :: 0 <= j < i ==> ps[j].uuid != uuid
    {
      if ps[i].uuid == uuid {
        return;
      }
      i := i + 1;
    }
    i := -1;
  }

  // ---------------------------------------------------------------- round loops

  /** The first player who is not ready, or |ps| when everyone is. */
  function FirstNotReady(ps: seq<Player>): (k: nat)
    ensures k <= |ps|
    ensures forall j :: 0 <= j < k ==> ps[j].ready
    ensures k < |ps| ==> !ps[k].ready
  {
    if ps == [] then 0
    else if !ps[0].ready then 0
    else 1 + FirstNotReady(ps[1..])
  }

  /** The first player without a clue, or |ps| when everyone has one. */
  function FirstEmptyClue(ps: seq<Player>): (k: nat)
    ensures k <= |ps|
    ensures forall j :: 0 <= j < k ==> ps[j].clue != []
    ensures k < |ps| ==> ps[k].clue == []
  {
    if ps == [] then 0
    else if ps[0].clue == [] then 0
    else 1 + FirstEmptyClue(ps[1..])
  }

  /** The players up to and including position `k` with their clues wiped. */
  function ClearedThrough(ps: seq<Player>, k: int): (r: seq<Player>)
  {
    seq(|ps|, j requires 0 <= j < |ps| => if j <= k then ps[j].(clue := []) else ps[j])
  }

  /** The players up to and including position `k` marked not ready. */
  function UnreadyThrough(ps: seq<Player>, k: int): (r: seq<Player>)
  {
    seq(|ps|, j requires 0 <= j < |ps| => if j <= k then ps[j].(ready := false) else ps[j])
  }

  /** The loop of handleReady: walk the roster wiping clues, and stop right
      after the first player who is not ready yet. */
  method WipeClues(ps: seq<Player>) returns (r: seq<Player>, waiting: bool)
    ensures waiting <==> FirstNotReady(ps) < |ps|
    ensures r == ClearedThrough(ps, FirstNotReady(ps))
  {
    r := ps;
    var i := 0;
    while i < |r|
      invariant 0 <= i <= |r| == |ps|
      invariant forall j :: 0 <= j < i ==> ps[j].ready && r[j] == ps[j].(clue := [])
      invariant forall j :: i <= j < |r| ==> r[j] == ps[j]
    {
      r := r[i := r[i].(clue := [])];
      if !r[i].ready {
        assert FirstNotReady(ps) == i;
        return r, true;
      }
      i := i + 1;
    }
    return r, false;
  }

  /** The loop of handleWrite: walk the roster marking players not ready,
      and stop right after the first player without a clue. */
  method UnreadyUntilBlank(ps: seq<Player>) returns (r: seq<Player>, blank: bool)
    ensures blank <==> FirstEmptyClue(ps) < |ps|
    ensures r == UnreadyThrough(ps, FirstEmptyClue(ps))
  {
    r := ps;
    var i := 0;
    while i < |r|
      invariant 0 <= i <= |r| == |ps|
      invariant forall j :: 0 <= j < i ==> ps[j].clue != [] && r[j] == ps[j].(ready := false)
      invariant forall j :: i <= j < |r| ==> r[j] == ps[j]
    {
      r := r[i := r[i].(ready := false)];
      if r[i].clue == [] {
        assert FirstEmptyClue(ps) == i;
        return r, true;
      }
      i := i + 1;
    }
    return r, false;
  }

  /** Every player in the roster is ready. */
  predicate AllReady(ps: seq<Player>)
  {
    forall j :: 0 <= j < |ps| ==> ps[j].ready
  }

  /** The loop of handleReconcile: is everyone ready? */
  method EveryoneReady(ps: seq<Player>) returns (all: bool)
    ensures all <==> AllReady(ps)
  {
    var i := 0;
    while i < |ps|
      invariant 0 <= i <= |ps|
      invariant forall j :: 0 <= j < i ==> ps[j].ready
    {
      if !ps[i].ready {
        return false;
      }
      i := i + 1;
    }
    return true;
  }

  /** The loop of handleGuess: nobody is ready for the next round. */
  method UnreadyAll(ps: seq<Player>) returns (r: seq<Player>)
    ensures r == UnreadyThrough(ps, |ps|)
  {
    r := ps;
    var i := 0;
    while i < |r|
      invariant 0 <= i <= |r| == |ps|
      invariant forall j :: 0 <= j < i ==> r[j] == ps[j].(ready := false)
      invariant forall j :: i <= j < |r| ==> r[j] == ps[j]
    {
      r := r[i := r[i].(ready := false)];
      i := i + 1;
    }
  }

  /** Wiping clues and readiness flags leaves everyone's identity alone. */
  lemma ThroughKeepsKeys(ps: seq<Player>, k: int)
    ensures SameKeys(ps, ClearedThrough(ps, k)) && SameKeys(ps, UnreadyThrough(ps, k))
  {
  }

  /** When handleReady finds everyone ready, the new round starts with every
      player ready and every clue wiped. */
  lemma RoundStartsClean(ps: seq<Player>)
    requires FirstNotReady(ps) == |ps|
    ensures forall j :: 0 <= j < |ps| ==> ClearedThrough(ps, |ps|)[j].ready && ClearedThrough(ps, |ps|)[j].clue == []
  {
  }

  /** When handleWrite moves on to reconciling, every player has written a
      clue and nobody is ready. */
  lemma CluesComplete(ps: seq<Player>)
    requires FirstEmptyClue(ps) == |ps|
    ensures forall j :: 0 <= j < |ps| ==>
      UnreadyThrough(ps, |ps|)[j].clue != [] && !UnreadyThrough(ps, |ps|)[j].ready
  {
  }

  // ---------------------------------------------------------------- commands

  datatype Kind =
    | CmdJoin
    | CmdLeave
    | CmdDisconnect
    | CmdStop
    | CmdReady
    | CmdName(name: Option<Bytes>)
    | CmdWrite(clue: Option<Bytes>)
    | CmdReconcile(answer: Option<Bytes>)
    | CmdGuess(guess: Option<Bytes>)
    | CmdOther(tag: Bytes)

  /** A decoded command: a payload that fails to decode is `None`. */
  datatype Command = Command(kind: Kind, sender: Bytes, version: int, ws: Conn)

  class Game {
    var players: seq<Player>
    var playerCursor: int
    var state: State
    var guesserCursor: int
    var guessMe: Bytes
    var win: bool
    var version: int

    ghost predicate Valid()
      reads this
    {
      && 1 <= playerCursor
      && |players| <= MaxPlayers
      && RosterIds(players, playerCursor)
      && guesserCursor >= 0
    }

    /** The states the handlers can actually reach: none of them ever enters
        the writing phase or makes anyone the guesser, so the reconciling
        phase (entered only from writing) is out of reach as well. */
    ghost predicate Reachable()
      reads this
    {
      && state != Writing
      && state != Reconciling
      && forall j :: 0 <= j < |players| ==> !players[j].isGuesser
    }

    /** The round bookkeeping that the roster handlers leave alone. */
    ghost function Round(): (State, int, Bytes, bool, int)
      reads this
    {
      (state, guesserCursor, guessMe, win, version)
    }

    /** What handleWrite, handleReconcile and handleGuess leave alone. */
    ghost function Others(): (int, int, Bytes, int)
      reads this
    {
      (playerCursor, guesserCursor, guessMe, version)
    }

    /** NewGame without its goroutine: an empty roster, the cursor at 1, and
        then reset. */
    constructor ()
      ensures Valid() && Reachable()
      ensures players == [] && playerCursor == 1 && state == Lobby
      ensures guesserCursor == 0 && guessMe == [] && !win && version == 0
    {
      players := [];
      playerCursor := 1;
      state := Lobby;
      guesserCursor := 0;
      guessMe := [];
      win := false;
      version := 0;
      new;
      Reset();
    }

    /** reset: back to the lobby; nothing else is touched. */
    method Reset()
      modifies this
      ensures state == Lobby
      ensures players == old(players) && playerCursor == old(playerCursor)
      ensures guesserCursor == old(guesserCursor) && guessMe == old(guessMe)
      ensures win == old(win) && version == old(version)
    {
      state := Lobby;
    }

    // ------------------------------------------------------------ roster

    /** What an accepted join leaves: a known uuid rebound to the new
        connection, or a new player with the next Id appended; the round is
        left alone. */
    twostate predicate Joined(uuid: Bytes, ws: Conn)
      reads this
    {
      var i := IndexOf(old(players), uuid);
      && Round() == old(Round())
      && (i >= 0 ==>
            && players == old(players)[i := old(players)[i].(ws := Some(ws), connected := true, ip := ws.ip)]
            && playerCursor == old(playerCursor))
      && (i < 0 ==>
            && players == old(players) + [NewPlayer(uuid, old(playerCursor)).(ws := Some(ws), connected := true, ip := ws.ip)]
            && playerCursor == old(playerCursor) + 1)
    }

    /** handleJoin: a known uuid is reconnected in any state; a new one joins
        only in the lobby and only while there are fewer than 10 players. */
    method Join(uuid: Bytes, ws: Conn) returns (updated: bool)
      requires Valid()
      modifies this
      ensures old(Reachable()) ==> Reachable()
      ensures Valid()
      ensures updated <==> IndexOf(old(players), uuid) >= 0 || (old(state) == Lobby && |old(players)| < MaxPlayers)
      ensures !updated ==> unchanged(this)
      ensures updated ==> Joined(uuid, ws)
    {
      var i := Find(players, uuid);
      var ps := players;
      if i == -1 {
        if state != Lobby {
          return false;
        }
        if |ps| >= MaxPlayers {
          return false;
        }
        ps := ps + [NewPlayer(uuid, playerCursor)];
        playerCursor := playerCursor + 1;
        i := |ps| - 1;
      }
      var q := ps[i].(ws := Some(ws), connected := true, ip := ws.ip);
      KeysKeepRoster(ps, ps[i := q], playerCursor);
      players := ps[i := q];
      return true;
    }

    /** What an accepted leave leaves: the first player with this uuid
        removed, the others in order; the round is left alone. */
    twostate predicate Left(uuid: Bytes)
      reads this
    {
      var i := IndexOf(old(players), uuid);
      && 0 <= i
      && players == RemoveAt(old(players), i)
      && Round() == old(Round()) && playerCursor == old(playerCursor)
    }

    /** handleLeave: removes the first player with this uuid, keeping the order
        of the others, in any state. */
    method Leave(uuid: Bytes) returns (updated: bool)
      requires Valid()
      modifies this
      ensures old(Reachable()) ==> Reachable()
      ensures Valid()
      ensures updated <==> IndexOf(old(players), uuid) >= 0
      ensures !updated ==> unchanged(this)
      ensures updated ==> Left(uuid)
    {
      var ps := players;
      var i := 0;
      while i < |ps| && ps[i].uuid != uuid
        invariant 0 <= i <= |ps|
        invariant forall j :: 0 <= j < i ==> ps[j].uuid != uuid
      {
        i := i + 1;
      }
      if i == |ps| {
        return false;
      }
      var r := ps[0..i] + ps[i + 1..];
      assert r == RemoveAt(ps, i);
      forall a, b | 0 <= a < b < |r|
        ensures r[a].uuid != r[b].uuid && r[a].id != r[b].id
      {
        var a', b' := if a < i then a else a + 1, if b < i then b else b + 1;
        assert r[a] == ps[a'] && r[b] == ps[b'];
      }
      players := r;
      return true;
    }

    /** What an accepted disconnect leaves: the player keeps their seat
        without a connection; the round is left alone. */
    twostate predicate Disconnected(uuid: Bytes)
      reads this
    {
      var i := IndexOf(old(players), uuid);
      && 0 <= i
      && players == old(players)[i := old(players)[i].(ws := None, connected := false)]
      && Round() == old(Round()) && playerCursor == old(playerCursor)
    }

    /** handleDisconnect: forgets the connection but keeps the player. */
    method Disconnect(uuid: Bytes) returns (updated: bool)
      requires Valid()
      modifies this
      ensures old(Reachable()) ==> Reachable()
      ensures Valid()
      ensures updated <==> IndexOf(old(players), uuid) >= 0
      ensures !updated ==> unchanged(this)
      ensures updated ==> Disconnected(uuid)
    {
      var i := Find(players, uuid);
      if i == -1 {
        return false;
      }
      var q := players[i].(ws := None, connected := false);
      KeysKeepRoster(players, players[i := q], playerCursor);
      players := players[i := q];
      return true;
    }

    /** What an accepted rename leaves: the decoded name, clipped to 8 bytes,
        stored for the sender; the round is left alone. */
    twostate predicate Renamed(uuid: Bytes, name: Option<Bytes>)
      reads this
    {
      var i := IndexOf(old(players), uuid);
      && 0 <= i && name.Some?
      && players == old(players)[i := old(players)[i].(name := ClipName(name.value))]
      && Round() == old(Round()) && playerCursor == old(playerCursor)
    }

    /** handleName: a named player may rename only in the lobby; the stored
        name is the decoded name clipped to 8 bytes. */
    method Name(uuid: Bytes, name: Option<Bytes>) returns (updated: bool)
      requires Valid()
      requires IndexOf(players, uuid) >= 0
      modifies this
      ensures old(Reachable()) ==> Reachable()
      ensures Valid()
      ensures var i := IndexOf(old(players), uuid);
        updated <==> (old(state) == Lobby || old(players)[i].name == []) && name.Some?
      ensures !updated ==> unchanged(this)
      ensures updated ==> Renamed(uuid, name)
    {
      var i := Find(players, uuid);
      if state != Lobby && players[i].name != [] {
        return false;
      }
      if name.None? {
        return false;
      }
      var q := players[i].(name := ClipName(name.value));
      KeysKeepRoster(players, players[i := q], playerCursor);
      players := players[i := q];
      return true;
    }

    // ------------------------------------------------------------ round

    /** Stores a roster that keeps every seat's player and guesser flag. */
    method SetPlayers(qs: seq<Player>)
      requires Valid() && SameKeys(players, qs)
      modifies this
      ensures Valid() && players == qs
      ensures Round() == old(Round()) && playerCursor == old(playerCursor)
      ensures old(Reachable()) ==> Reachable()
    {
      KeysKeepRoster(players, qs, playerCursor);
      players := qs;
    }

    /** What an accepted ready leaves: the sender ready and clues wiped up to
        the first player still waiting; when nobody is waiting, the guessing
        phase with the next guesser cursor and the new secret word. */
    twostate predicate Readied(uuid: Bytes, word: Bytes)
      reads this
      requires 0 <= IndexOf(old(players), uuid)
    {
      var i := IndexOf(old(players), uuid);
      var marked := old(players)[i := old(players)[i].(ready := true)];
      var k := FirstNotReady(marked);
      && players == ClearedThrough(marked, k)
      && playerCursor == old(playerCursor) && win == old(win) && version == old(version)
      && (k < |marked| ==>
            state == old(state) && guesserCursor == old(guesserCursor) && guessMe == old(guessMe))
      && (k == |marked| ==>
            && state == Guessing && guessMe == word
            && guesserCursor == Next(old(guesserCursor), |players|)
            && guesserCursor <= |players|
            && forall j :: 0 <= j < |players| ==> players[j].ready && players[j].clue == [])
      && players[i].ready
    }

    /** handleReady: in the lobby or after a round, the sender becomes ready
        and clues are wiped up to the first player still waiting; once
        everyone is ready the guessing phase opens with the next guesser
        cursor and a new secret word. */
    method Ready(uuid: Bytes, word: Bytes) returns (updated: bool)
      requires Valid()
      requires IndexOf(players, uuid) >= 0
      modifies this
      ensures old(Reachable()) ==> Reachable()
      ensures Valid()
      ensures updated <==> old(state) == Lobby || old(state) == End
      ensures !updated ==> unchanged(this)
      ensures updated ==> Readied(uuid, word)
    {
      var i := Find(players, uuid);
      if state != Lobby && state != End {
        return false;
      }
      var waiting := MarkReady(i);
      if waiting {
        return true;
      }
      OpenGuessing(word);
      return true;
    }

    /** The sender at seat `i` becomes ready and clues are wiped through the
        first player still waiting, if any. */
    method MarkReady(i: nat) returns (waiting: bool)
      requires Valid() && i < |players|
      modifies this
      ensures Valid() && Round() == old(Round()) && playerCursor == old(playerCursor)
      ensures old(Reachable()) ==> Reachable()
      ensures var marked := old(players)[i := old(players)[i].(ready := true)];
        && players == ClearedThrough(marked, FirstNotReady(marked))
        && (waiting <==> FirstNotReady(marked) < |marked|)
      ensures !waiting ==> forall j :: 0 <= j < |players| ==> players[j].ready && players[j].clue == []
      ensures players[i].ready
    {
      var marked := players[i := players[i].(ready := true)];
      var r;
      r, waiting := WipeClues(marked);
      ThroughKeepsKeys(marked, FirstNotReady(marked));
      assert SameKeys(players, r);
      SetPlayers(r);
      if !waiting {
        RoundStartsClean(marked);
      }
    }

    /** Everyone is ready: the guesser cursor moves on (wrapping once it
        passes the number of players) and the secret word is drawn. */
    method OpenGuessing(word: Bytes)
      requires Valid()
      modifies this
      ensures Valid() && state == Guessing && guessMe == word
      ensures guesserCursor == Next(old(guesserCursor), |players|) && guesserCursor <= |players|
      ensures players == old(players) && playerCursor == old(playerCursor)
      ensures win == old(win) && version == old(version)
      ensures old(Reachable()) ==> Reachable()
    {
      state := Guessing;
      guesserCursor := guesserCursor + 1;
      if guesserCursor > |players| {
        guesserCursor := 0;
      }
      guessMe := word;
    }

    /** What an accepted clue leaves: the clue stored, every clue in, nobody
        ready, and the reconciling phase. */
    twostate predicate Written(uuid: Bytes, clue: Option<Bytes>)
      reads this
      requires 0 <= IndexOf(old(players), uuid) && clue.Some?
    {
      var i := IndexOf(old(players), uuid);
      var written := old(players)[i := old(players)[i].(clue := clue.value)];
      && players == UnreadyThrough(written, |written|)
      && state == Reconciling
      && Others() == old(Others()) && win == old(win)
      && forall j :: 0 <= j < |players| ==> players[j].clue != [] && !players[j].ready
    }

    /** handleWrite: in the writing phase a player other than the guesser
        stores the decoded clue; players are then marked not ready up to the
        first one still without a clue, and once every clue is in the
        reconciling phase opens.  The stored clue and the cleared flags
        stay even when the handler then reports no update. */
    method Write(uuid: Bytes, clue: Option<Bytes>) returns (updated: bool)
      requires Valid()
      requires IndexOf(players, uuid) >= 0
      modifies this
      ensures old(Reachable()) ==> !updated && unchanged(this)
      ensures Valid() && Others() == old(Others()) && win == old(win)
      ensures var i := IndexOf(old(players), uuid);
        && (old(state) != Writing || old(players)[i].isGuesser || clue.None? ==> !updated && unchanged(this))
        && (old(state) == Writing && !old(players)[i].isGuesser && clue.Some? ==>
              var written := old(players)[i := old(players)[i].(clue := clue.value)];
              var k := FirstEmptyClue(written);
              && players == UnreadyThrough(written, k)
              && (updated <==> k == |written|)
              && state == (if updated then Reconciling else Writing)
              && (updated ==> forall j :: 0 <= j < |players| ==> players[j].clue != [] && !players[j].ready))
      ensures updated ==> Written(uuid, clue)
    {
      var i := Find(players, uuid);
      if state != Writing {
        return false;
      }
      if players[i].isGuesser {
        return false;
      }
      if clue.None? {
        return false;
      }
      var written := players[i := players[i].(clue := clue.value)];
      var r, blank := UnreadyUntilBlank(written);
      ThroughKeepsKeys(written, FirstEmptyClue(written));
      SetPlayers(r);
      if blank {
        return false;
      }
      CluesComplete(written);
      state := Reconciling;
      return true;
    }

    /** What an accepted answer leaves: the sender ready, their clue wiped on
        "dupe", everyone ready, and the guessing phase. */
    twostate predicate Reconciled(uuid: Bytes, answer: Option<Bytes>)
      reads this
      requires 0 <= IndexOf(old(players), uuid) && answer.Some?
    {
      var i := IndexOf(old(players), uuid);
      var marked := old(players)[i := old(players)[i].(ready := true)];
      var after := if answer.value == Dupe then marked[i := marked[i].(clue := [])] else marked;
      && players == after && AllReady(after)
      && state == Guessing
      && Others() == old(Others()) && win == old(win)
    }

    /** handleReconcile: in the reconciling phase the sender becomes ready
        (even when the answer does not decode); the answer "dupe" wipes the
        sender's clue; once everyone is ready the guessing phase opens. */
    method Reconcile(uuid: Bytes, answer: Option<Bytes>) returns (updated: bool)
      requires Valid()
      requires IndexOf(players, uuid) >= 0
      modifies this
      ensures old(Reachable()) ==> !updated && unchanged(this)
      ensures Valid() && Others() == old(Others()) && win == old(win)
      ensures var i := IndexOf(old(players), uuid);
        && (old(state) != Reconciling ==> !updated && unchanged(this))
        && (old(state) == Reconciling ==>
              var marked := old(players)[i := old(players)[i].(ready := true)];
              && (answer.None? ==> !updated && players == marked && state == Reconciling)
              && (answer.Some? ==>
                    var after := if answer.value == Dupe then marked[i := marked[i].(clue := [])] else marked;
                    && players == after
                    && (updated <==> AllReady(after))
                    && state == (if updated then Guessing else Reconciling)))
      ensures updated ==> Reconciled(uuid, answer)
    {
      var i := Find(players, uuid);
      if state != Reconciling {
        return false;
      }
      var ps := players[i := players[i].(ready := true)];
      SetPlayers(ps);
      if answer.None? {
        return false;
      }
      if answer.value == Dupe {
        ps := ps[i := ps[i].(clue := [])];
        SetPlayers(ps);
      }
      var all := EveryoneReady(ps);
      if !all {
        return false;
      }
      state := Guessing;
      return true;
    }

    /** What an accepted guess leaves: the round over, a win iff the
        upper-cased guess is the secret word, and nobody ready. */
    twostate predicate Guessed(guess: Option<Bytes>)
      reads this
      requires guess.Some?
    {
      && state == End
      && (win <==> ToUpper(guess.value) == old(guessMe))
      && players == UnreadyThrough(old(players), |old(players)|)
      && Others() == old(Others())
    }

    /** handleGuess: in the guessing phase only the guesser may answer; the
        round ends even when the guess does not decode, and a decoded guess
        wins when its upper-cased form is the secret word; then nobody is
        ready. */
    method Guess(uuid: Bytes, guess: Option<Bytes>) returns (updated: bool)
      requires Valid()
      requires IndexOf(players, uuid) >= 0
      modifies this
      ensures old(Reachable()) ==> !updated && unchanged(this)
      ensures Valid() && Others() == old(Others())
      ensures var i := IndexOf(old(players), uuid);
        && (old(state) != Guessing || !old(players)[i].isGuesser ==> !updated && unchanged(this))
        && (old(state) == Guessing && old(players)[i].isGuesser ==>
              && state == End
              && (updated <==> guess.Some?)
              && (guess.None? ==> players == old(players) && win == old(win))
              && (guess.Some? ==>
                    && (win <==> ToUpper(guess.value) == old(guessMe))
                    && players == UnreadyThrough(old(players), |old(players)|)))
      ensures updated ==> Guessed(guess)
    {
      var i := Find(players, uuid);
      if state != Guessing {
        return false;
      }
      if !players[i].isGuesser {
        return false;
      }
      state := End;
      if guess.None? {
        return false;
      }
      Settle(guess.value);
      state := End;
      return true;
    }

    /** A decoded guess wins when its upper-cased form is the secret word;
        then nobody is ready for the next round. */
    method Settle(guess: Bytes)
      requires Valid()
      modifies this
      ensures Valid() && Others() == old(Others()) && state == old(state)
      ensures win <==> ToUpper(guess) == old(guessMe)
      ensures players == UnreadyThrough(old(players), |old(players)|)
      ensures old(Reachable()) ==> Reachable()
    {
      win := ToUpper(guess) == guessMe;
      var r := UnreadyAll(players);
      ThroughKeepsKeys(players, |players|);
      SetPlayers(r);
    }

    // ------------------------------------------------------------ run loop

    /** What the handlers dereference: the sender of a command other than
        join, leave and disconnect must be in the roster. */
    predicate Safe(cmd: Command)
      reads this
    {
      (cmd.kind.CmdName? || cmd.kind.CmdReady? || cmd.kind.CmdWrite? || cmd.kind.CmdReconcile? || cmd.kind.CmdGuess?)
        ==> IndexOf(players, cmd.sender) >= 0
    }

    /** When the handler run dispatches a command to accepts it, as each
        handler decides: a known or admissible joiner, a known sender, a
        rename in the lobby or of an unnamed player, ready in the lobby or
        after a round, the clue that completes the writing phase, the answer
        that leaves everyone ready, and a decoded guess from the guesser.
        Stop and unknown commands are never handled. */
    ghost predicate Accepts(cmd: Command)
      reads this
      requires Safe(cmd)
    {
      var i := IndexOf(players, cmd.sender);
      match cmd.kind
      case CmdJoin => i >= 0 || (state == Lobby && |players| < MaxPlayers)
      case CmdLeave => i >= 0
      case CmdDisconnect => i >= 0
      case CmdName(name) => (state == Lobby || players[i].name == []) && name.Some?
      case CmdReady => state == Lobby || state == End
      case CmdWrite(clue) =>
        && state == Writing && !players[i].isGuesser && clue.Some?
        && var written := players[i := players[i].(clue := clue.value)];
           FirstEmptyClue(written) == |written|
      case CmdReconcile(answer) =>
        && state == Reconciling && answer.Some?
        && var marked := players[i := players[i].(ready := true)];
           var after := if answer.value == Dupe then marked[i := marked[i].(clue := [])] else marked;
           AllReady(after)
      case CmdGuess(guess) => state == Guessing && players[i].isGuesser && guess.Some?
      case CmdStop => false
      case CmdOther(_) => false
    }

    /** What an accepted command leaves: the new state its handler produces. */
    twostate predicate Effect(cmd: Command, word: Bytes)
      reads this
      requires old(Safe(cmd)) && old(Accepts(cmd))
    {
      match cmd.kind
      case CmdJoin => Joined(cmd.sender, cmd.ws)
      case CmdLeave => Left(cmd.sender)
      case CmdDisconnect => Disconnected(cmd.sender)
      case CmdName(name) => Renamed(cmd.sender, name)
      case CmdReady => Readied(cmd.sender, word)
      case CmdWrite(clue) => Written(cmd.sender, clue)
      case CmdReconcile(answer) => Reconciled(cmd.sender, answer)
      case CmdGuess(guess) => Guessed(guess)
      case CmdStop => false
      case CmdOther(_) => false
    }

    /** One iteration of run: skip a command for another version, stop on the
        stop command, skip an unknown kind, and otherwise dispatch to the
        handler.  `word` stands for the random pick from the word list. */
    method Step(cmd: Command, word: Bytes) returns (outcome: Outcome)
      requires Valid()
      requires cmd.version == version ==> Safe(cmd)
      modifies this
      ensures Valid()
      ensures cmd.version != old(version) ==> outcome == Stale && unchanged(this)
      ensures cmd.version == old(version) && cmd.kind.CmdStop? ==> outcome == Stopped && unchanged(this)
      ensures cmd.version == old(version) && cmd.kind.CmdOther? ==> outcome == Unknown && unchanged(this)
      ensures cmd.version == old(version) && !cmd.kind.CmdStop? && !cmd.kind.CmdOther? ==>
        outcome == Rejected || outcome == Updated
      ensures outcome == Updated <==> cmd.version == old(version) && old(Accepts(cmd))
      ensures outcome == Updated ==> Effect(cmd, word)
      ensures version == old(version) && playerCursor >= old(playerCursor)
      ensures old(Reachable()) ==> Reachable()
      ensures old(Reachable()) && outcome == Rejected ==> unchanged(this)
      ensures old(Reachable()) && (cmd.kind.CmdWrite? || cmd.kind.CmdReconcile? || cmd.kind.CmdGuess?) ==>
        outcome != Updated && unchanged(this)
      ensures old(Reachable()) && old(state) == Guessing ==> state == Guessing
    {
      if version != cmd.version {
        return Stale;
      }
      if cmd.kind.CmdStop? {
        return Stopped;
      }
      if cmd.kind.CmdOther? {
        return Unknown;
      }
      var updated := Dispatch(cmd, word);
      outcome := if updated then Updated else Rejected;
    }

    /** run's dispatch of a command for the current version to its handler. */
    method Dispatch(cmd: Command, word: Bytes) returns (updated: bool)
      requires Valid() && cmd.version == version && Safe(cmd)
      requires !cmd.kind.CmdStop? && !cmd.kind.CmdOther?
      modifies this
      ensures Valid()
      ensures updated <==> old(Accepts(cmd))
      ensures updated ==> Effect(cmd, word)
      ensures version == old(version) && playerCursor >= old(playerCursor)
      ensures old(Reachable()) ==> Reachable()
      ensures old(Reachable()) && !updated ==> unchanged(this)
      ensures old(Reachable()) && (cmd.kind.CmdWrite? || cmd.kind.CmdReconcile? || cmd.kind.CmdGuess?) ==>
        !updated && unchanged(this)
      ensures old(Reachable()) && old(state) == Guessing ==> state == Guessing
    {
      if cmd.kind.CmdJoin? || cmd.kind.CmdLeave? || cmd.kind.CmdDisconnect? || cmd.kind.CmdName? {
        updated := HandleRoster(cmd);
      } else {
        updated := HandleRound(cmd, word);
      }
    }

    /** The roster half of run's dispatch: join, leave, disconnect and name,
        which leave the round alone (their effect does not involve the word). */
    method HandleRoster(cmd: Command) returns (updated: bool)
      requires Valid() && Safe(cmd)
      requires cmd.kind.CmdJoin? || cmd.kind.CmdLeave? || cmd.kind.CmdDisconnect? || cmd.kind.CmdName?
      modifies this
      ensures Valid()
      ensures updated <==> old(Accepts(cmd))
      ensures updated ==> Effect(cmd, [])
      ensures !updated ==> unchanged(this)
      ensures Round() == old(Round()) && playerCursor >= old(playerCursor)
      ensures old(Reachable()) ==> Reachable()
    {
      match cmd.kind {
        case CmdJoin =>
          updated := Join(cmd.sender, cmd.ws);
        case CmdLeave =>
          updated := Leave(cmd.sender);
        case CmdDisconnect =>
          updated := Disconnect(cmd.sender);
        case CmdName(name) =>
          updated := Name(cmd.sender, name);
      }
    }

    /** The round half of run's dispatch: ready, write, reconcile and guess. */
    method HandleRound(cmd: Command, word: Bytes) returns (updated: bool)
      requires Valid() && Safe(cmd)
      requires cmd.kind.CmdReady? || cmd.kind.CmdWrite? || cmd.kind.CmdReconcile? || cmd.kind.CmdGuess?
      modifies this
      ensures Valid()
      ensures updated <==> old(Accepts(cmd))
      ensures updated ==> Effect(cmd, word)
      ensures version == old(version) && playerCursor == old(playerCursor)
      ensures old(Reachable()) ==> Reachable()
      ensures old(Reachable()) && !updated ==> unchanged(this)
      ensures old(Reachable()) && !cmd.kind.CmdReady? ==> !updated && unchanged(this)
      ensures old(Reachable()) && old(state) == Guessing ==> state == Guessing
    {
      if cmd.kind.CmdReady? || cmd.kind.CmdGuess? {
        updated := HandleTurn(cmd, word);
      } else {
        updated := HandleClues(cmd);
      }
    }

    /** Ready, which opens a round, and guess, which closes it. */
    method HandleTurn(cmd: Command, word: Bytes) returns (updated: bool)
      requires Valid() && Safe(cmd)
      requires cmd.kind.CmdReady? || cmd.kind.CmdGuess?
      modifies this
      ensures Valid()
      ensures updated <==> old(Accepts(cmd))
      ensures updated ==> Effect(cmd, word)
      ensures version == old(version) && playerCursor == old(playerCursor)
      ensures old(Reachable()) ==> Reachable()
      ensures old(Reachable()) && !updated ==> unchanged(this)
      ensures old(Reachable()) && cmd.kind.CmdGuess? ==> !updated && unchanged(this)
      ensures old(Reachable()) && old(state) == Guessing ==> state == Guessing
    {
      if cmd.kind.CmdReady? {
        updated := Ready(cmd.sender, word);
      } else {
        updated := Guess(cmd.sender, cmd.kind.guess);
      }
    }

    /** Write and reconcile, the two phases in which clues are collected
        (their effect does not involve the word). */
    method HandleClues(cmd: Command) returns (updated: bool)
      requires Valid() && Safe(cmd)
      requires cmd.kind.CmdWrite? || cmd.kind.CmdReconcile?
      modifies this
      ensures Valid()
      ensures updated <==> old(Accepts(cmd))
      ensures updated ==> Effect(cmd, [])
      ensures version == old(version) && playerCursor == old(playerCursor)
      ensures old(Reachable()) ==> !updated && unchanged(this)
    {
      if cmd.kind.CmdWrite? {
        updated := Write(cmd.sender, cmd.kind.clue);
      } else {
        updated := Reconcile(cmd.sender, cmd.kind.answer);
      }
    }
  }
}

=== FILE: seqs.dfy ===
/** The slice edits the handlers perform, as functions on sequences. */
module Seqs {

  /** `append(s[:i], s[i+1:]...)`: drop entry `i`, keep the others in order. */
  function RemoveAt<T>(s: seq<T>, i: nat): (r: seq<T>)
    requires i < |s|
    ensures |r| == |s| - 1
    ensures forall j :: 0 <= j < i ==> r[j] == s[j]
    ensures forall j :: i <= j < |r| ==> r[j] == s[j + 1]
    ensures multiset(r) + multiset{s[i]} == multiset(s)
  {
    assert s == s[..i] + [s[i]] + s[i+1..];
    s[..i] + s[i+1..]
  }

  /** `s[i] = s[len-1]; s = s[:len-1]`: drop entry `i` by moving the last entry
      into its place, so the order of the rest is not kept. */
  function SwapRemove<T>(s: seq<T>, i: nat): (r: seq<T>)
    requires i < |s|
    ensures |r| == |s| - 1
    ensures forall j :: 0 <= j < |r| && j != i ==> r[j] == s[j]
    ensures i < |r| ==> r[i] == s[|s| - 1]
    ensures multiset(r) + multiset{s[i]} == multiset(s)
  {
    var last := |s| - 1;
    if i == last then
      assert s == s[..last] + [s[last]];
      s[..last]
    else
      assert s == s[..i] + [s[i]] + s[i+1..last] + [s[last]];
      s[..i] + [s[last]] + s[i+1..last]
  }

  predicate NoDups<T(==)>(s: seq<T>)
  {
    forall i, j :: 0 <= i < j < |s| ==> s[i] != s[j]
  }

  /** What `rand.Perm(n)` returns: each of 0..n-1 exactly once. */
  predicate IsPerm(s: seq<int>, n: nat)
  {
    && |s| == n
    && (forall i :: 0 <= i < |s| ==> 0 <= s[i] < n)
    && NoDups(s)
    && (forall k :: 0 <= k < n ==> k in s)
  }

  /** A duplicate-free sequence loses exactly one value when one entry is removed. */
  lemma RemoveAtSet<T>(s: seq<T>, i: nat)
    requires i < |s| && NoDups(s)
    ensures NoDups(RemoveAt(s, i))
    ensures (set x | x in RemoveAt(s, i)) == (set x | x in s) - {s[i]}
  {
    var r := RemoveAt(s, i);
    forall x | x in s && x != s[i] ensures x in r {
      var j :| 0 <= j < |s| && s[j] == x;
      if j < i { assert r[j] == x; } else { assert r[j - 1] == x; }
    }
  }
}
